=== FILE: README.md ===
# Economize — a Dafny model of the inventory rules

Economize is a small inventory web application. Store staff record products that are taken off the shelf: expired (`VENCIDO`), used by the store (`USO LOJA`), damaged (`AVARIADO`) or sent to the restaurant (`RESTAURANTE`). The browser validates and normalises the product form and shows the products in a table with an expiry status. A dashboard counts the products, and the list can be exported to a spreadsheet. An Express server keeps the list in memory.

This project models the checkable logic of that application as pure Dafny functions and proves properties of them. It covers:

- the form (`form-handler.js`):
  - validation, with the messages in their order;
  - Brazilian currency normalisation and its format check;
  - conversion between `YYYY-MM-DD` and `DD/MM/YYYY`;
  - the due-date rule and the timestamps of the record sent;
  - the autocomplete lists it extends after a submit.
- the table (`table-handler.js`):
  - the expiry classification against an injected "today";
  - labels, tooltips and HTML escaping;
  - building and updating rows;
  - renumbering, case-insensitive filtering and the hourly status refresh.
- the dashboard (`initialization.js`):
  - the fail-safe "really expired" predicate, which deliberately differs from the table's classifier;
  - the per-reason counts;
  - the autocomplete lists filled while loading.
- the export dialog (`export-handler.js`): the file-name slug, the confirmation that rejects an empty reason selection, and the summary line.
- the server (`server.js`):
  - request validation;
  - add, update by id, delete by id and reset, each as `seq<Record> -> (seq<Record>, reply)`;
  - the spreadsheet rows and their fill rule.

JavaScript semantics the model relies on live in two modules. `Js` holds `parseInt`, `Number()` on integer texts, truthiness and `trim`. `Text` holds `split`, `join`, `includes`, ASCII `toLowerCase`, `toString`, `padStart`, `padEnd` and `replace(/\s+/g, …)`. `new Date(y, m, d)` is modelled in `Calendar` as ECMAScript's MakeDay: a day number counted from 1970-01-01, with month and day overflow. Wall-clock readings are parameters: "today" as a day number, the current date-time text, the id and the file-name date.

Modules:
- `js.dfy`, `text.dfy` and `calendar.dfy` hold the JavaScript primitives.
- `catalog.dfy` holds the client product record and the reason constants.
- `currency.dfy` and `dateformat.dfy` hold the form's normalisers.
- `form.dfy` holds validation and submission.
- `expiry.dfy`, `html.dfy` and `table.dfy` hold the table.
- `dashboard.dfy` holds the dashboard.
- `autocomplete.dfy` holds the suggestion lists. There are two sets of them. `initialization.js` keeps module-local arrays that it fills while loading and hands to the autocomplete widgets. `form-handler.js` exports arrays of the same names that the form and the table extend, but no widget reads them. `Autocomplete.Lists` holds both sets.
- `export.dfy` holds the export dialog.
- `store.dfy` holds the server.

## Model

| member | source | states |
|---|---|---|
| Js.Trim | public/js/form-handler.js:24-48 | `trim` gives the slice of the input that starts right after its leading whitespace and is followed only by whitespace. The result is "" exactly for blank texts, and a non-blank result starts and ends with a non-whitespace character |
| Js.TrimUnpadded | public/js/form-handler.js:24-48 | a text that starts and ends with a non-whitespace character is left as it is by `trim` |
| Js.ParseIntOfDigitsThen | public/js/table-handler.js:18-20 | `parseInt` reads a run of decimal digits followed by anything that is not a digit or an `x` as the run's value |
| Text.Split | public/js/table-handler.js:13-14 | `split` pieces never contain the separator and joined back give the input; there is one piece exactly when the separator is absent |
| Text.SplitJoin | public/js/initialization.js:42-43 | splitting separator-free pieces joined by the separator recovers exactly those pieces |
| Text.LowerKeepsContains | public/js/table-handler.js:329-337 | a literal substring match survives lowering both sides |
| Text.NatToString | public/js/form-handler.js:166-168 | `toString` of a non-negative integer is a digit string without a leading zero whose decimal value is the number |
| Text.ParseNatToString | public/js/table-handler.js:300 | `parseInt` reads back the number `toString` wrote |
| Text.PadStart | public/js/form-handler.js:166-167 | `padStart` keeps the text at the end, fills the front with the pad character, and reaches the width |
| Text.Pad2 | public/js/form-handler.js:166-167 | two-digit zero padding gives two digits whose value is the number |
| Text.ReplaceWhitespaceRuns | public/js/export-handler.js:29 | after `replace(/\s+/g, rep)` no whitespace is left, every character comes from the input or the replacement, and a text without whitespace is unchanged |
| Text.ReplaceRunOnce | public/js/export-handler.js:29 | a whitespace run after a whitespace-free piece, and before a text that does not start with whitespace, becomes exactly one copy of the replacement; the rest is replaced on its own |
| Calendar.Epoch | public/js/table-handler.js:27 | day 0 is 1 January 1970 |
| Calendar.MonthRollover | public/js/initialization.js:53 | the day after a month's last day is the first of the next month, including December into January |
| Calendar.TwelveMonthsAYear | public/js/table-handler.js:27 | a month index past 11 counts into the next year |
| Calendar.CalendarOrder | public/js/initialization.js:71-76 | for real calendar dates, the day numbers are in the order of the dates |
| Calendar.DayOfYearBounds | public/js/table-handler.js:27-35 | a calendar date's day falls inside its year |
| Calendar.DaysBeforeMonth | public/js/table-handler.js:27 | the days before a month are the common-year offset of that month, plus one from March on in a leap year |
| Currency.KeepNumericChars | public/js/form-handler.js:60 | stripping keeps only digits, `,`, `.` and `-`, and leaves a text made of those unchanged |
| Currency.ValidCurrencyShape | public/js/form-handler.js:144-149 | `R$ reais,cents` matches `^R\$ \d+,\d{2}$` exactly when the reais are one or more digits and the cents exactly two digits |
| Currency.ReplaceFirst | public/js/form-handler.js:132 | `replace(',', '.')` changes only the first comma, and text without a comma comes back unchanged |
| Currency.FormatCurrency | public/js/form-handler.js:56-63 | an empty value, `R$`, or a value with no digit, `,`, `.` or `-` formats to `R$ 0,00` |
| Currency.FormatDigits | public/js/form-handler.js:69-89 | all-digit input n below 2^53 gives `R$ n div 100,n mod 100` with two-digit cents, which passes `isValidCurrency` |
| Currency.FormatWholeCents | public/js/form-handler.js:73-88 | the four branches of the all-digit case all agree with the single reais-and-cents spelling and pass the format check |
| Currency.FixCents | public/js/form-handler.js:99-105 | the cents become exactly two characters: cut to two, or padded with `0` |
| Currency.FormatDigitsCommaDigits | public/js/form-handler.js:92-108 | `R$ reais,cents` keeps its reais and has its cents fixed to two digits |
| Currency.FormatIdempotent | public/js/form-handler.js:92-108 | a value that passes `isValidCurrency` is left exactly as it is |
| Currency.TypedDigitAfterCentsDropped | public/js/form-handler.js:99-100 | a digit typed after the cents of a valid value is cut off again |
| DateFormat.FormatDateToBrazilian | public/js/form-handler.js:152-176 | the result is "" exactly when the input has no `-`. Otherwise it is a `DD/MM/YYYY` text when the three `-` parts read as a date in range, and the input unchanged when they do not |
| DateFormat.FormatDateToIso | public/js/form-handler.js:179-202 | the result is "" exactly when the input has no `/`. Otherwise it is a `YYYY-MM-DD` text when the three `/` parts read as a date in range, and the input unchanged when they do not |
| DateFormat.ReadDate | public/js/form-handler.js:159-164 | a date is accepted only with year 1900..2100, month 1..12 and day 1..31, as the parsed fields |
| DateFormat.BrazilianOfIso | public/js/form-handler.js:157-168 | a zero-padded ISO date in range becomes its Brazilian spelling |
| DateFormat.IsoOfBrazilian | public/js/form-handler.js:183-194 | a zero-padded Brazilian date in range becomes its ISO spelling |
| DateFormat.IsoRoundTrip | public/js/form-handler.js:152-202 | ISO to Brazilian and back gives the same ISO text |
| DateFormat.BrazilianRoundTrip | public/js/form-handler.js:152-202 | Brazilian to ISO and back gives the same Brazilian text |
| DateFormat.BrazilianNormalises | public/js/form-handler.js:152-202 | once a text has been converted, a further round trip leaves the converted text unchanged |
| DateFormat.BrazilianFields | public/js/initialization.js:42-47 | a Brazilian date splits at `/` into the padded day, the padded month and the year |
| Form.ReadForm | public/js/form-handler.js:221-229 | a value already in currency format reaches the form data unchanged |
| Form.ValidateForm | public/js/form-handler.js:21-53 | an error is reported exactly when its check fails, the list is empty exactly when every field is acceptable, and errors keep the order of the checks |
| Form.NoFailureIffOk | public/js/form-handler.js:24-50 | no check fails exactly when codigo, produto and usuario are non-blank, valor is neither blank nor `R$`, quantidade is a number above 0, motivo is non-blank, and a VENCIDO product has a date |
| Form.FailuresKeepOrder | public/js/form-handler.js:21-53 | filtering the ordered checks keeps them ordered |
| Form.OnlyVencidoNeedsDate | public/js/form-handler.js:44-46 | no reason other than exactly `VENCIDO` can raise the missing-date error |
| Form.SentDueDate | public/js/form-handler.js:245-251 | a product that is not VENCIDO is sent with an empty due date |
| Form.Submit | public/js/form-handler.js:212-274 | the form is rejected exactly when validation fails, with exactly the failing checks. It stops at the currency alert exactly when validation passes and the value fails the format check, and sends exactly when both pass. A record sent has the trimmed code, name and user, the chosen reason, and a quantity text that `parseInt` reads back as the parsed quantity. It also has a valid currency value, the current modification stamp, the due-date rule applied, and the insertion stamp read from the edited row |
| Form.ValidFormIsSent | public/js/form-handler.js:227-251 | a form that passes validation and whose value is already in currency format is sent, with that value |
| Form.SubmitFormAsWritten | public/js/form-handler.js:257-266 | as written, an edited product is sent with the row's user cell as its insertion stamp |
| Form.SubmitForm | public/js/form-handler.js:257-266 | a new product is stamped now, and an edited one keeps its row's insertion stamp |
| Form.AsWrittenLosesInsertionStamp | public/js/form-handler.js:263 | editing any row whose user differs from its insertion stamp sends the wrong insertion stamp |
| Form.EditKeepsInsertionStamp | public/js/form-handler.js:262-264 | after any number of table updates, editing sends the stamp the row was built with |
| Form.SubmitSendsBrazilianDate | public/js/form-handler.js:245-247 | a VENCIDO product with an ISO date in range is sent with its Brazilian spelling |
| Form.SubmitKeepsValidValue | public/js/form-handler.js:227-239 | a value typed in currency format is sent unchanged |
| Autocomplete.AddUnique | public/js/form-handler.js:366-376 | the value becomes a member, the list only grows at its end by at most one, and nothing else enters |
| Autocomplete.AddUniqueKeepsNoDuplicates | public/js/form-handler.js:367-369 | adding never introduces a duplicate |
| Autocomplete.Remember | public/js/form-handler.js:366-376 | after remembering, a value is listed exactly when it was listed before or is the product's code, name or user, empty or not. The lists stay duplicate-free |
| Autocomplete.RememberAppendsOnly | public/js/form-handler.js:366-376 | all three lists only grow at their ends |
| Autocomplete.RememberIdempotent | public/js/form-handler.js:366-376 | remembering the same product twice is remembering it once |
| Autocomplete.RememberFilled | public/js/table-handler.js:307-317 | after remembering, a value is listed exactly when it was listed before or is the product's non-empty code, name or user. The lists stay duplicate-free |
| Autocomplete.SubmitRemember | public/js/form-handler.js:296-300 | a successful submit extends only the exported lists, by both updates; the lists offered to the widgets are unchanged |
| Autocomplete.SubmittedCodeNotOffered | public/js/form-handler.js:6-8 | a code first typed in a submit is remembered in the exported list but is still not offered by the code widget |
| Autocomplete.LoadSuggestions | public/js/initialization.js:100-113 | loading fills both sets of lists: each stays duplicate-free and free of empty values, and a code is listed exactly when it was before or is a non-empty code of a loaded product |
| Autocomplete.LoadInto | public/js/initialization.js:100-113 | loading one set of lists keeps it duplicate-free and adds no empty value |
| Autocomplete.LoadedCodes | public/js/initialization.js:104-106 | after loading, the code list holds the earlier codes and exactly the non-empty codes of the loaded products |
| Expiry.Classify | public/js/table-handler.js:35-67 | a negative difference gives `vencido`/`VENCIDO` with the days overdue, 0 gives `vencido`/`HOJE`, 1..7 give `proximo-vencimento` and `n dia(s)`, and above 7 gives `normal` and `n dias` |
| Expiry.Tooltip | public/js/table-handler.js:120-136 | the tooltip is the no-date text exactly for N/A and `Produto vence hoje!` exactly for HOJE |
| Expiry.TooltipNamesStatus | public/js/table-handler.js:120-136 | every tooltip describes its status: reading the wording and the number back gives the status it was written for. So the overdue, HOJE, due-soon (`Atenção: vence em`), valid (`Produto válido por mais`) and no-date texts are all told apart |
| Expiry.TooltipNamesDiff | public/js/table-handler.js:120-136 | every tooltip of a readable date names its day difference: reading it back gives the difference, negated for overdue |
| Expiry.SoonTooltipText | public/js/table-handler.js:127-128 | the due-soon warning is `Atenção: vence em`, the day count, then `dia` for one day and `dias` for more |
| Expiry.ValidTooltipText | public/js/table-handler.js:129-130 | the tooltip of a product due later is `Produto válido por mais`, the day count, then `dias` |
| Expiry.DueDay | public/js/table-handler.js:7-27 | a blank date, a date without exactly three `/` parts, or one with an unreadable part has no day |
| Expiry.DueDayOfParts | public/js/table-handler.js:13-27 | a date of three `/` parts that `parseInt` all reads is the day `new Date(ano, mes - 1, dia)`, with no range check on day or month |
| Expiry.DiasParaVencimento | public/js/table-handler.js:6-67 | N/A exactly when the date is unreadable; overdue exactly when the due day is before today; HOJE exactly when it is today; for a readable date, the status is the classification of the day difference |
| Expiry.StatusFor | public/js/table-handler.js:89-91 | a product not exactly `VENCIDO` is always N/A / `sem-vencimento`, whatever its date |
| Expiry.LabelStatesDays | public/js/table-handler.js:53-67 | the label of an upcoming date reads back through `parseInt` as its number of days |
| Expiry.OverdueTooltipStatesDays | public/js/table-handler.js:122-125 | the overdue tooltip names the days overdue, which `parseInt` reads back, followed by `dia` for one day and `dias` for more |
| Expiry.OverdueTooltipText | public/js/table-handler.js:122-125 | the whole overdue tooltip: the prefix, the day count, then `dia` or `dias` |
| Expiry.OneDayLater | public/js/table-handler.js:53-59 | a product due in 1 day is due today one day later |
| Expiry.OneDayLabel | public/js/table-handler.js:53-59 | a product due in one day is labelled `1 dia`, without the plural |
| Expiry.OverdueIffEarlierDate | public/js/table-handler.js:27-45 | for real calendar dates, a product is overdue exactly when its date is before today's |
| Html.EscapeText | public/js/table-handler.js:277-287 | the output has no `<`, `>`, `"` or `'`, and a text without special characters is unchanged |
| Html.EscapeHtml | public/js/table-handler.js:278 | non-strings are returned unchanged |
| Html.DecodeEscape | public/js/table-handler.js:279-286 | the browser decodes the escaped text back to the original |
| Html.EscapeTwiceAmpersand | public/js/table-handler.js:280 | escaping is not idempotent: `&` escaped twice is `&amp;amp;` |
| Table.BuildRow | public/js/table-handler.js:75-111 | the row shows the product's fields and quantity. Its number cell is the decimal text of the row number, which `parseInt` reads back. A product that is not VENCIDO shows N/A. A VENCIDO product shows the status cell of its date. The modification cell is the product's stamp, or the insertion stamp when there is none |
| Table.EscapedCell | public/js/table-handler.js:95-104 | an escaped cell shows exactly the original text |
| Table.UpdateRow | public/js/table-handler.js:231-253 | an update rewrites code, name, value, quantity and date from the product, shows N/A for a product that is not VENCIDO and the status cell of its date otherwise, stamps the modification with the product's stamp or now, and keeps the number, the insertion stamp and the actions |
| Table.UpdateMatchesRebuild | public/js/table-handler.js:231-253 | updating a row gives the row built from the new product, except for the number and the insertion stamp |
| Table.RenumberRows | public/js/table-handler.js:295-304 | after renumbering, row i shows the decimal text of i + 1, which `parseInt` reads back. No other cell changes, and the count equals the number of rows |
| Table.FilterTable | public/js/table-handler.js:320-345 | an empty term shows every row; otherwise a row is shown exactly when some cell other than the last contains the term, ignoring case |
| Table.FilterIgnoresTermCase | public/js/table-handler.js:329 | the filter gives the same result for a term and its lowercase form |
| Table.FilterIgnoresActions | public/js/table-handler.js:336 | the actions cell never affects the filter |
| Table.RefreshRow | public/js/table-handler.js:352-366 | the refresh changes only the status cell, only for a VENCIDO row with a date, and only when the text changes. A VENCIDO row with a date then shows the label of its date's status, and a changed status cell is exactly the cell for that status |
| Table.RefreshStatus | public/js/table-handler.js:348-368 | the whole table is refreshed row by row: same number of rows, each row refreshed in place |
| Table.RefreshIdempotent | public/js/table-handler.js:348-368 | refreshing twice on the same day is refreshing once |
| Table.OverdueTooltipKeptOnRefresh | public/js/table-handler.js:361 | a row that still reads VENCIDO keeps its old tooltip, even though the number of days overdue has grown |
| Table.RefreshAfterBuild | public/js/table-handler.js:352-366 | a freshly built row is unchanged by a refresh on the same day |
| Table.RefreshNextDay | public/js/table-handler.js:348-368 | a row built for a product due tomorrow reads `1 dia`, and refreshed the next day it has the HOJE cell |
| Dashboard.ParseDataBrasileira | public/js/initialization.js:39-54 | a date is read only from a text with exactly three `/` parts whose fields parse with day 1..31, month 1..12 and year of at least 1900 |
| Dashboard.CountMotivoExtremes | public/js/initialization.js:140-151 | a reason count is 0 exactly when no product has that reason, and equals the list length exactly when every product has it |
| Dashboard.ReadFields | public/js/initialization.js:39-54 | any three fields in range are accepted, as `new Date(ano, mes - 1, dia)` |
| Dashboard.NoDayInMonthCheck | public/js/initialization.js:51 | 31/02 is accepted and read as a day in March |
| Dashboard.IsProdutoVencido | public/js/initialization.js:57-86 | false for every reason other than VENCIDO. A blank or unreadable date counts as expired. Otherwise expired exactly when the due day is before today, so a product due today is not expired |
| Dashboard.ClassifiersAgreeOnReadableDates | public/js/initialization.js:71-76 | for a readable date the dashboard and the table agree on "expired" |
| Dashboard.ClassifiersDisagreeOnIsoDates | public/js/initialization.js:62-69 | an ISO-spelled date is expired for the dashboard but N/A in the table |
| Dashboard.FormDatesRead | public/js/initialization.js:39-54 | every date the form sends is read back as its calendar day |
| Dashboard.CountVencidos | public/js/initialization.js:143-146 | the really expired products are among those with reason VENCIDO |
| Dashboard.ProductStats | public/js/initialization.js:136-151 | total is the list length. Each reason count is the number of exact matches. vencidos ≤ comMotivoVencido, and vencidos + vencidosProximos = comMotivoVencido |
| Dashboard.ReasonCountsWithinTotal | public/js/initialization.js:146-151 | the four reason counts add up to at most the total |
| Export.Slug | public/js/export-handler.js:29 | a slug has no whitespace and no uppercase ASCII letter |
| Export.SlugIdempotent | public/js/export-handler.js:29 | a slug is its own slug |
| Export.SlugIgnoresCase | public/js/export-handler.js:29 | two reasons differing only in ASCII case get the same slug |
| Export.SlugOfRun | public/js/export-handler.js:29 | every whitespace run of a name becomes exactly one `_` in its slug |
| Export.FilenameSuffix | public/js/export-handler.js:27-36 | a single reason or user adds `_` and its slug, and a single status is added raw. The suffix is empty exactly for the type `all`; any other type without a single entry, including several reasons, gives `_filtrado` |
| Export.ExportFilename | public/js/export-handler.js:27-37 | the name starts with `produtos` and ends with `_`, the date and `.xlsx` |
| Export.CheckedValues | public/js/export-handler.js:201-202 | the checked values are empty exactly when nothing is checked, and each comes from a checked box |
| Export.ValuesOfChecked | public/js/export-handler.js:201-202 | value i sent with the filter is the value of the i-th checked box |
| Export.Checked | public/js/export-handler.js:201-202 | a box is among the checked ones exactly when it is in the dialog and checked |
| Export.CheckedValuesAppend | public/js/export-handler.js:201-202 | the values keep checkbox order |
| Export.ConfirmExport | public/js/export-handler.js:196-211 | nothing is exported exactly when the type is `motivo` and no reason is checked. The filter carries reasons exactly for that type, in checkbox order |
| Export.SingleReasonFilename | public/js/export-handler.js:28-37 | confirming one checked reason downloads `produtos_<slug>_<date>.xlsx` |
| Export.SelectionSummary | public/js/export-handler.js:219-230 | `all` gives `Todos os produtos serão exportados`; `motivo` gives `Nenhum motivo selecionado` when nothing is checked and otherwise `Motivos selecionados: ` with the checked labels joined by `, `; any other type gives "" |
| Export.LabelsOfChecked | public/js/export-handler.js:225-226 | label i of the summary is the trimmed caption of the i-th checked box |
| Export.SummaryWarnsIffConfirmRefuses | public/js/export-handler.js:200-230 | the summary says `Nenhum motivo selecionado` exactly when confirming would be refused |
| Store.ValidateProduct | server.js:60-78 | the request passes exactly when all six required fields are truthy and the quantity is a number above 0. It gets the missing-fields 400 exactly when a required field is falsy; every rejection is a 400 |
| Store.AddProduct | server.js:88-104 | an invalid body leaves the list and answers 400. Otherwise exactly one record is appended, with the body's fields, the id and both stamps, and every earlier record unchanged |
| Store.FirstMatch | server.js:135-136 | `findIndex` gives the first record with the id, or none exactly when no record has it |
| Store.Merge | server.js:145-149 | the merged record has the body's fields, keeps the old fields the body lacks, and carries the new `updatedAt` |
| Store.UpdateProduct | server.js:133-157 | validation comes before the id lookup. An unknown id answers 404 and changes nothing. A valid body with a known id always answers the success message, and only the first matching record changes, to the merge. The length is kept |
| Store.UpdateIdempotent | server.js:135-156 | repeating an update whose body carries no id changes nothing more |
| Store.AddThenUpdate | server.js:133-156 | updating a freshly added product replaces only that last record, with its merge with the body |
| Store.DeleteProduct | server.js:169-186 | a delete answers 404 and changes nothing exactly when no record has the id. Otherwise it answers the success message and removes one record carrying the id, keeping the others in order |
| Store.DeleteNotFound | server.js:171-179 | a delete answers 404 exactly when no record has the id, and then leaves the list unchanged |
| Store.DeleteRemovesOne | server.js:181 | a successful delete removes exactly one record with the id and keeps every other record |
| Store.AddThenDelete | server.js:169-182 | adding under a fresh id and deleting that id restores the list |
| Store.ResetProducts | server.js:278-297 | a password other than the string `1234` answers 401 and leaves the list. The right one empties it and answers 200 with the reset message |
| Store.ResetThenAdd | server.js:88-104 | after a reset, a valid add leaves a list of exactly the one new record |
| Store.ResetIdempotent | server.js:278-297 | resetting twice with the same password leaves the list the first reset left |
| Store.ExportRowOf | server.js:219-229 | every copied column holds the product's field of the same key; the due date shows only for reason `VENCIDO` and is blank otherwise |
| Store.ExportRows | server.js:218-230 | one row per product, in list order, numbered from 1 |
| Store.ExportAfterAdd | server.js:218-230 | adding a product leaves every earlier export row as it was |
| Store.ExportRowOfAdded | server.js:218-230 | the added product's row comes last, numbered after the others |
| Store.RowStyle | server.js:243-256 | only row 1 is bold with a font colour, and it has the orange header fill and the white font. Even data rows get the `FFF6E7` fill and odd data rows the white `FFFFFFFF` fill |
| Store.ProductRowFill | server.js:250-255 | data rows alternate fill by row parity, starting with the tinted fill for the first product, and differ from the header |
| Store.ExportToExcel | server.js:199-230 | as written, every product is exported whatever filter the client sent |
| Store.ExportIgnoresReasonFilter | server.js:218 | a product whose reason was not chosen is still exported |
| Store.ExportRowsFor | server.js:218-230 | with the filter applied, the rows are exactly those of the selected products in list order, renumbered from 1, so every row has a chosen reason. Other filter types export everything |
| Store.FilteredExportDropsUnchosen | server.js:218 | with the filter applied, the product of the unchosen reason is left out |

## Left out

- Whatever touches the DOM, `alert`, `fetch`, timers, `visibilitychange` and cursor handling is left out. So are file persistence (`loadProducts`, `saveProductsToFile`, the backup copy made on reset), Express routing, `request-ip`, ExcelJS workbook writing and `logger.js`. These are I/O or foreign libraries.
- `client.js` and `event-listeners.js` are not part of this model: they only wire prompts and toggles to the functions above.
- The current date and time, `Date.now()` ids, the date in the export file name and the `toLocaleString` texts are parameters. Id uniqueness is a precondition of `Store.AddThenDelete` only, because the source does not guarantee it.
- Currency.FormatCurrency: two kinds of input come back as `FloatDependent`, marking where the browser's number formatting decides the text. The first is a digit string of 2^53 or more, which `parseInt` rounds. The second is an input that passes the comma and dot branches and reaches the `parseFloat` fallback (public/js/form-handler.js:131-138) with a prefix `parseFloat` can read, such as `-5`. Inputs that a branch handles stay exact: `1.5` gives `R$ 1,50` through the dot branch, and `-` gives `R$ -` because `parseFloat` reads nothing there. Form.CurrencyText takes what the browser prints for the `FloatDependent` inputs as a function parameter.
- Store.ValidateProduct: `Js.StringToNumber` covers only the optionally signed decimal integers of `Number()`. A quantity text outside that grammar reads as NaN in the model and gets the 400 reply. In JavaScript such texts can pass: a fraction or an exponent (`"2.5"`, `"1e3"`), a hex, octal or binary literal (`"0x10"`, `"0o7"`, `"0b1"`), and `"Infinity"`. Nested JSON objects and arrays are not among the modelled values.
- Expiry.DiasParaVencimento: the `ERRO` catch branch is omitted. It is unreachable in the model, and the ±8.64e15 ms `Date` range is not modelled.
- Calendar.MakeDay: years 0–99 do not map to 19xx, and daylight-saving shifts in `Math.ceil` of a millisecond difference are ignored; days are whole calendar days.
- Table.BuildRow: the actions cell is "" rather than the button markup. Its one property, that the filter never looks at it, is proved. The quantity cell is inserted unescaped, and a missing field shows as `undefined` in the browser. The model uses "" for a missing field.
- Table.FilterTable and Export.Slug: `toLowerCase` is modelled on ASCII letters only.
- Export.SelectionSummary: the `<strong>Seleção:</strong>` markup around the summary is not modelled.
- Form.Submit: the quantity is sent as the decimal text of the parsed number, where the page sends a JSON number. `parseInt` is exact in the model, but in JavaScript it rounds a digit string of 2^53 or more to the nearest double.
- Store.AddProduct: one `now` parameter serves as both `createdAt` and `updatedAt`. The server reads the clock separately for the id and for each stamp (server.js:92-94), so in the server the two stamps can differ by the time between the reads.
- Store.AddProduct, Store.UpdateProduct, Store.DeleteProduct and Store.ResetProducts: the `product` echoed in the JSON reply and the 500 branches are not modelled.
- Store.RowStyle: the thin borders and the centred alignment given to every cell are not modelled. Neither is ExcelJS skipping cells it considers empty.
- Dashboard.ProductStats: the rendering of the stats tiles is left out, and only the counts are modelled.
- `/getProducts` and `/logEdit` only return or log data.

## Notes

- After a submit, the form and the table extend only the exported autocomplete lists. The widgets keep offering the lists filled while loading, so a code first typed in a submit is not suggested until the page is reloaded (`Autocomplete.SubmittedCodeNotOffered`).
- The server export applies no filter (see Findings).
- `parseDataBrasileira` accepts 31/02, because it has no day-in-month check (`Dashboard.NoDayInMonthCheck`).
- A product due today gets status `HOJE` under the `vencido` CSS class.

## Findings

| source | as written | input that shows it | evidently intended | confidence | as-written member | corrected member |
|---|---|---|---|---|---|---|
| public/js/form-handler.js:263 | the insertion stamp of an edited product is read from `editingRow.children[8]`, the user cell | editing a row whose user is `ana` and whose insertion stamp is `01/01/2024 10:00:00` sends `dataHoraInsercao: "ana"` | read `children[9]`, the insertion-stamp cell that `updateProductInTable` keeps (table-handler.js:252) | high; not executed | Form.SubmitFormAsWritten, Form.AsWrittenLosesInsertionStamp | Form.SubmitForm, Form.EditKeepsInsertionStamp |
| server.js:199-230 | `/exportToExcel` never reads the `filters` query parameter the client appends (public/js/export-handler.js:12) | a list holding one `VENCIDO` product, exported with `{type: 'motivo', motivos: ['AVARIADO']}`, yields a spreadsheet with that product | export only the products whose reason was chosen, renumbered over the selection | medium; not executed | Store.ExportToExcel, Store.ExportIgnoresReasonFilter | Store.ExportRowsFor, Store.FilteredExportDropsUnchosen |

=== FILE: autocomplete.dfy ===
/** The autocomplete lists of the product form (codes, names, users). There
    are two sets of them: the module-local arrays of `initialization.js`, which
    are the ones handed to the autocomplete widgets and are only filled while
    the products load, and the arrays exported by `form-handler.js`, which the
    table and the form extend after every add and edit but which no widget
    reads. Values are added by the form after a submit (no check for empty
    values), by the table when a row is added or updated, and by the initial
    load (both skip empty values). */
module Autocomplete {
  import opened Catalog

  datatype Suggestions = Suggestions(codes: seq<string>, names: seq<string>, users: seq<string>)

  /** The two sets of lists: `offered` (initialization.js, read by the widgets)
      and `shared` (form-handler.js, extended by the form and the table). */
  datatype Lists = Lists(offered: Suggestions, shared: Suggestions)

  predicate NoDuplicates(list: seq<string>)
  {
    forall i, j :: 0 <= i < j < |list| ==> list[i] != list[j]
  }

  predicate Valid(s: Suggestions)
  {
    NoDuplicates(s.codes) && NoDuplicates(s.names) && NoDuplicates(s.users)
  }

  /** `if (!list.includes(v)) list.push(v)`. */
  function AddUnique(list: seq<string>, v: string): (r: seq<string>)
    ensures v in r
    ensures |list| <= |r| <= |list| + 1 && r[..|list|] == list
    ensures forall x :: x in r <==> x in list || x == v
  {
    if v in list then list else list + [v]
  }

  /** `if (v && !list.includes(v)) list.push(v)`. */
  function AddFilled(list: seq<string>, v: string): (r: seq<string>)
    ensures |list| <= |r| <= |list| + 1 && r[..|list|] == list
    ensures forall x :: x in r <==> x in list || (x == v && v != "")
  {
    if v != "" then AddUnique(list, v) else list
  }

  lemma AddUniqueKeepsNoDuplicates(list: seq<string>, v: string)
    requires NoDuplicates(list)
    ensures NoDuplicates(AddUnique(list, v))
  {
  }

  lemma AddUniqueIdempotent(list: seq<string>, v: string)
    ensures AddUnique(AddUnique(list, v), v) == AddUnique(list, v)
  {
  }

  /** `updateAutocompleteArrays` of the form: every value is added. */
  function Remember(s: Suggestions, p: Product): (r: Suggestions)
    ensures forall x :: x in r.codes <==> x in s.codes || x == p.codigo
    ensures forall x :: x in r.names <==> x in s.names || x == p.produto
    ensures forall x :: x in r.users <==> x in s.users || x == p.usuario
    ensures Valid(s) ==> Valid(r)
  {
    var r := Suggestions(AddUnique(s.codes, p.codigo), AddUnique(s.names, p.produto), AddUnique(s.users, p.usuario));
    assert Valid(s) ==> Valid(r) by {
      if Valid(s) {
        AddUniqueKeepsNoDuplicates(s.codes, p.codigo);
        AddUniqueKeepsNoDuplicates(s.names, p.produto);
        AddUniqueKeepsNoDuplicates(s.users, p.usuario);
      }
    }
    r
  }

  /** `updateAutocompleteArrays` of the table, and the same test repeated by
      `loadProducts`: empty values are skipped. */
  function RememberFilled(s: Suggestions, p: Product): (r: Suggestions)
    ensures forall x :: x in r.codes <==> x in s.codes || (x == p.codigo && p.codigo != "")
    ensures forall x :: x in r.names <==> x in s.names || (x == p.produto && p.produto != "")
    ensures forall x :: x in r.users <==> x in s.users || (x == p.usuario && p.usuario != "")
    ensures Valid(s) ==> Valid(r)
  {
    var r := Suggestions(AddFilled(s.codes, p.codigo), AddFilled(s.names, p.produto), AddFilled(s.users, p.usuario));
    assert Valid(s) ==> Valid(r) by {
      if Valid(s) {
        AddUniqueKeepsNoDuplicates(s.codes, p.codigo);
        AddUniqueKeepsNoDuplicates(s.names, p.produto);
        AddUniqueKeepsNoDuplicates(s.users, p.usuario);
      }
    }
    r
  }

  /** The form after the server accepted an add or an edit: the row is added
      or updated in the table, which remembers the filled values, and the form
      remembers every value. Both act on the shared lists only. */
  function SubmitRemember(l: Lists, p: Product): (r: Lists)
    ensures r.offered == l.offered
    ensures forall x :: x in r.shared.codes <==> x in l.shared.codes || x == p.codigo
    ensures Valid(l.shared) ==> Valid(r.shared)
  {
    Lists(l.offered, Remember(RememberFilled(l.shared, p), p))
  }

  /** A code first entered through the form reaches the shared lists but is
      never offered by the code widget, which reads the other set. */
  lemma SubmittedCodeNotOffered(l: Lists, p: Product)
    requires p.codigo !in l.offered.codes
    ensures p.codigo in SubmitRemember(l, p).shared.codes
    ensures p.codigo !in SubmitRemember(l, p).offered.codes
  {
  }

  /** The lists only grow at their ends. */
  predicate Extends(s: Suggestions, r: Suggestions)
  {
    && |s.codes| <= |r.codes| && r.codes[..|s.codes|] == s.codes
    && |s.names| <= |r.names| && r.names[..|s.names|] == s.names
    && |s.users| <= |r.users| && r.users[..|s.users|] == s.users
  }

  lemma RememberAppendsOnly(s: Suggestions, p: Product)
    ensures Extends(s, Remember(s, p)) && Extends(s, RememberFilled(s, p))
  {
  }

  /** Remembering the same product twice is remembering it once. */
  lemma RememberIdempotent(s: Suggestions, p: Product)
    ensures Remember(Remember(s, p), p) == Remember(s, p)
    ensures RememberFilled(RememberFilled(s, p), p) == RememberFilled(s, p)
  {
  }

  /** One set of lists after the products of `loadProducts` are remembered
      in order, skipping empty values. */
  function LoadInto(s: Suggestions, products: seq<Product>): (r: Suggestions)
    ensures Valid(s) ==> Valid(r)
    ensures "" !in s.codes && "" !in s.names && "" !in s.users ==>
      "" !in r.codes && "" !in r.names && "" !in r.users
    decreases |products|
  {
    if products == [] then s
    else
      var p := products[|products| - 1];
      RememberFilled(LoadInto(s, products[..|products| - 1]), p)
  }

  /** `loadProducts`: each product goes through `addProductToTable`, which
      remembers it in the shared lists, and through the same test once more
      for the lists the widgets offer. */
  function LoadSuggestions(l: Lists, products: seq<Product>): (r: Lists)
    ensures Valid(l.offered) ==> Valid(r.offered)
    ensures Valid(l.shared) ==> Valid(r.shared)
    ensures forall x :: x in r.offered.codes <==> x in l.offered.codes || x in FilledCodes(products)
    ensures forall x :: x in r.shared.codes <==> x in l.shared.codes || x in FilledCodes(products)
  {
    LoadedCodes(l.offered, products);
    LoadedCodes(l.shared, products);
    Lists(LoadInto(l.offered, products), LoadInto(l.shared, products))
  }

  /** The non-empty product codes of a list of products. */
  function FilledCodes(products: seq<Product>): set<string>
    decreases |products|
  {
    if products == [] then {}
    else
      var p := products[|products| - 1];
      FilledCodes(products[..|products| - 1]) + (if p.codigo != "" then {p.codigo} else {})
  }

  lemma {:induction false} FilledCodesMembers(products: seq<Product>, x: string)
    ensures x in FilledCodes(products) <==>
      x != "" && exists i :: 0 <= i < |products| && products[i].codigo == x
    decreases |products|
  {
    if products != [] {
      var init := products[..|products| - 1];
      FilledCodesMembers(init, x);
      if x != "" && exists i :: 0 <= i < |products| && products[i].codigo == x {
        var i :| 0 <= i < |products| && products[i].codigo == x;
        if i < |init| {
          assert init[i].codigo == x;
        }
      }
      if exists i :: 0 <= i < |init| && init[i].codigo == x {
        var i :| 0 <= i < |init| && init[i].codigo == x;
        assert products[i].codigo == x;
      }
    }
  }

  /** After loading, the code list holds the earlier codes and exactly the
      non-empty codes of the products. */
  lemma {:induction false} LoadedCodes(s: Suggestions, products: seq<Product>)
    ensures forall x :: x in LoadInto(s, products).codes <==> x in s.codes || x in FilledCodes(products)
    decreases |products|
  {
    if products != [] {
      LoadedCodes(s, products[..|products| - 1]);
    }
  }

  /** The same, with the products' codes spelled out. */
  lemma LoadedCodesAre(l: Lists, products: seq<Product>, x: string)
    ensures x in LoadSuggestions(l, products).offered.codes <==>
      x in l.offered.codes || (x != "" && exists i :: 0 <= i < |products| && products[i].codigo == x)
  {
    FilledCodesMembers(products, x);
  }
}

=== FILE: calendar.dfy ===
/** Local calendar dates as whole day numbers, the way `new Date(year, monthIndex,
    day)` builds them (ECMAScript MakeDay): the month index and the day may overflow
    and are carried into the year and the month. Day 0 is 1 January 1970. */
module Calendar {

  predicate IsLeap(y: int)
  {
    y % 4 == 0 && (y % 100 != 0 || y % 400 == 0)
  }

  function DaysInMonth(y: int, m: int): (n: int)
    requires 1 <= m <= 12
    ensures 28 <= n <= 31
  {
    if m == 2 then (if IsLeap(y) then 29 else 28)
    else if m == 4 || m == 6 || m == 9 || m == 11 then 30
    else 31
  }

  function YearLength(y: int): int
  {
    if IsLeap(y) then 366 else 365
  }

  /** Days before the first of each month in a common year. */
  const CommonYearOffsets: seq<int> := [0, 31, 59, 90, 120, 151, 181, 212, 243, 273, 304, 334]

  /** Days of year `y` before the first of month `m` (1-based): the common
      year's offset, one more from March on in a leap year. */
  function DaysBeforeMonth(y: int, m: int): (n: int)
    requires 1 <= m <= 12
    ensures 0 <= n
    ensures n == CommonYearOffsets[m - 1] + (if m > 2 && IsLeap(y) then 1 else 0)
    decreases m
  {
    if m == 1 then 0 else DaysBeforeMonth(y, m - 1) + DaysInMonth(y, m - 1)
  }

  /** Leap years among the years before `y`, counted from year 1 (and backwards
      for earlier years, through floor division). */
  function LeapYearsBefore(y: int): int
  {
    (y - 1) / 4 - (y - 1) / 100 + (y - 1) / 400
  }

  /** Days from 1 January 1970 to 1 January of `y`. */
  function DaysBeforeYear(y: int): int
  {
    365 * (y - 1970) + LeapYearsBefore(y) - LeapYearsBefore(1970)
  }

  /** `new Date(year, monthIndex, day)` as a day number, month index 0-based. */
  function MakeDay(year: int, monthIndex: int, day: int): int
  {
    var y := year + monthIndex / 12;
    var m := monthIndex % 12 + 1;
    DaysBeforeYear(y) + DaysBeforeMonth(y, m) + day - 1
  }

  /** The length of the month `MakeDay` lands in for a month index. */
  function MonthLength(year: int, monthIndex: int): int
  {
    DaysInMonth(year + monthIndex / 12, monthIndex % 12 + 1)
  }

  /** A date as people write it: month 1..12 and a day that exists in that month. */
  predicate IsCalendarDate(y: int, m: int, d: int)
  {
    1 <= m <= 12 && 1 <= d <= DaysInMonth(y, m)
  }

  lemma Epoch()
    ensures MakeDay(1970, 0, 1) == 0
  {
  }

  lemma FloorStep4(y: int)
    ensures y / 4 - (y - 1) / 4 == if y % 4 == 0 then 1 else 0
  {
  }

  lemma FloorStep100(y: int)
    ensures y / 100 - (y - 1) / 100 == if y % 100 == 0 then 1 else 0
  {
  }

  lemma FloorStep400(y: int)
    ensures y / 400 - (y - 1) / 400 == if y % 400 == 0 then 1 else 0
  {
  }

  /** Consecutive years start `YearLength` days apart. */
  lemma YearStep(y: int)
    ensures DaysBeforeYear(y + 1) == DaysBeforeYear(y) + YearLength(y)
  {
    var a, b, c := y / 4 - (y - 1) / 4, y / 100 - (y - 1) / 100, y / 400 - (y - 1) / 400;
    FloorStep4(y);
    FloorStep100(y);
    FloorStep400(y);
    DivisorsOfCenturies(y);
    assert LeapYearsBefore(y + 1) - LeapYearsBefore(y) == a - b + c;
    assert a - b + c == if IsLeap(y) then 1 else 0;
  }

  lemma DivisorsOfCenturies(y: int)
    ensures y % 400 == 0 ==> y % 100 == 0
    ensures y % 100 == 0 ==> y % 4 == 0
  {
    if y % 400 == 0 {
      var t := 4 * (y / 400);
      assert y == 100 * t;
    }
    if y % 100 == 0 {
      var t := 25 * (y / 100);
      assert y == 4 * t;
    }
  }

  lemma MonthsFillYear(y: int)
    ensures DaysBeforeMonth(y, 12) + DaysInMonth(y, 12) == YearLength(y)
  {
  }

  /** The day after the last day of a month is the first day of the next month:
      `MakeDay` carries an overflowing day into the month and an overflowing
      month into the year. */
  lemma MonthRollover(year: int, monthIndex: int)
    ensures MakeDay(year, monthIndex, MonthLength(year, monthIndex) + 1)
         == MakeDay(year, monthIndex + 1, 1)
  {
    if monthIndex % 12 == 11 {
      DecemberRollover(year, monthIndex);
    } else {
      assert (monthIndex + 1) / 12 == monthIndex / 12;
      assert (monthIndex + 1) % 12 == monthIndex % 12 + 1;
    }
  }

  lemma DecemberRollover(year: int, monthIndex: int)
    requires monthIndex % 12 == 11
    ensures MakeDay(year, monthIndex, MonthLength(year, monthIndex) + 1)
         == MakeDay(year, monthIndex + 1, 1)
  {
    var y := year + monthIndex / 12;
    assert (monthIndex + 1) / 12 == monthIndex / 12 + 1;
    assert (monthIndex + 1) % 12 == 0;
    YearStep(y);
    MonthsFillYear(y);
  }

  /** A month index twelve further on is the same month a year later. */
  lemma TwelveMonthsAYear(year: int, monthIndex: int, day: int)
    ensures MakeDay(year, monthIndex + 12, day) == MakeDay(year + 1, monthIndex, day)
  {
    assert (monthIndex + 12) / 12 == monthIndex / 12 + 1;
    assert (monthIndex + 12) % 12 == monthIndex % 12;
  }

  /** Without overflow, `MakeDay` is the year's start plus the day of the year. */
  lemma MakeDayInRange(y: int, m: int, d: int)
    requires 1 <= m <= 12
    ensures MakeDay(y, m - 1, d) == DaysBeforeYear(y) + DaysBeforeMonth(y, m) + d - 1
  {
    assert (m - 1) / 12 == 0 && (m - 1) % 12 == m - 1;
  }

  /** A calendar date falls inside its year. */
  lemma DayOfYearBounds(y: int, m: int, d: int)
    requires IsCalendarDate(y, m, d)
    ensures DaysBeforeYear(y) <= MakeDay(y, m - 1, d) < DaysBeforeYear(y) + YearLength(y)
  {
    MakeDayInRange(y, m, d);
    MonthsInOrder(y, m, 12);
    MonthsFillYear(y);
  }

  lemma {:induction false} MonthsInOrder(y: int, m: int, m': int)
    requires 1 <= m <= m' <= 12
    ensures DaysBeforeMonth(y, m) + DaysInMonth(y, m) <= DaysBeforeMonth(y, m') + DaysInMonth(y, m')
    decreases m' - m
  {
    if m < m' {
      MonthsInOrder(y, m, m' - 1);
    }
  }

  lemma {:induction false} YearsInOrder(y: int, y': int)
    requires y < y'
    ensures DaysBeforeYear(y) + YearLength(y) <= DaysBeforeYear(y')
    decreases y' - y
  {
    YearStep(y);
    if y + 1 < y' {
      YearsInOrder(y + 1, y');
      YearStep(y + 1);
    }
  }

  predicate Before(y: int, m: int, d: int, y': int, m': int, d': int)
  {
    y < y' || (y == y' && (m < m' || (m == m' && d < d')))
  }

  lemma EarlierYear(y: int, m: int, d: int, y': int, m': int, d': int)
    requires IsCalendarDate(y, m, d) && IsCalendarDate(y', m', d') && y < y'
    ensures MakeDay(y, m - 1, d) < MakeDay(y', m' - 1, d')
  {
    DayOfYearBounds(y, m, d);
    DayOfYearBounds(y', m', d');
    YearsInOrder(y, y');
  }

  lemma EarlierMonth(y: int, m: int, d: int, m': int, d': int)
    requires IsCalendarDate(y, m, d) && IsCalendarDate(y, m', d') && m < m'
    ensures MakeDay(y, m - 1, d) < MakeDay(y, m' - 1, d')
  {
    MakeDayInRange(y, m, d);
    MakeDayInRange(y, m', d');
    MonthsInOrder(y, m, m' - 1);
    assert DaysBeforeMonth(y, m') == DaysBeforeMonth(y, m' - 1) + DaysInMonth(y, m' - 1);
  }

  lemma EarlierDate(y: int, m: int, d: int, y': int, m': int, d': int)
    requires IsCalendarDate(y, m, d) && IsCalendarDate(y', m', d')
    requires Before(y, m, d, y', m', d')
    ensures MakeDay(y, m - 1, d) < MakeDay(y', m' - 1, d')
  {
    if y < y' {
      EarlierYear(y, m, d, y', m', d');
    } else if m < m' {
      EarlierMonth(y, m, d, m', d');
    }
  }

  /** For real calendar dates, comparing day numbers is comparing dates. */
  lemma CalendarOrder(y: int, m: int, d: int, y': int, m': int, d': int)
    requires IsCalendarDate(y, m, d) && IsCalendarDate(y', m', d')
    ensures MakeDay(y, m - 1, d) < MakeDay(y', m' - 1, d') <==> Before(y, m, d, y', m', d')
  {
    if Before(y, m, d, y', m', d') {
      EarlierDate(y, m, d, y', m', d');
    } else if Before(y', m', d', y, m, d) {
      EarlierDate(y', m', d', y, m, d);
    }
  }
}

=== FILE: catalog.dfy ===
/** A product record as the browser sees it (form data, table rows, the product
    list returned by the server). Text fields that are missing read as "": every
    check in the browser code tests them with `!x || ...`, which treats a missing
    field and an empty one alike. */
module Catalog {

  /** The reasons offered by the form; the set is open and matched exactly. */
  const MotivoVencido := "VENCIDO"
  const MotivoUsoLoja := "USO LOJA"
  const MotivoAvariado := "AVARIADO"
  const MotivoRestaurante := "RESTAURANTE"

  datatype Product = Product(
    codigo: string,
    produto: string,
    valor: string,
    quantidade: string,
    motivo: string,
    dataVencimento: string,
    usuario: string,
    dataHoraInsercao: string,
    dataUltimaModificacao: string)
}

=== FILE: currency.dfy ===
/** The Brazilian currency text of the product form: normalisation of what the
    user typed (`formatCurrency`) and the format check run before submitting
    (`isValidCurrency`). */
module Currency {
  import opened Js
  import opened Text

  const Zero := "R$ 0,00"

  /** 2^53: all-digit values from here on are read by `parseInt` as rounded
      floating-point numbers. */
  const SafeIntegerLimit := 0x20_0000_0000_0000

  /** The result of `formatCurrency`. `FloatDependent` marks the inputs whose
      result is computed in floating point (`parseFloat(...).toFixed(2)`, or an
      all-digit value of 2^53 or more); it carries the stripped numeric text. */
  datatype Formatted = Exact(text: string) | FloatDependent(numeric: string)

  /** What `/[^\d,.-]/g` leaves in place. */
  predicate IsNumericChar(c: char)
  {
    IsDigit(c) || c == ',' || c == '.' || c == '-'
  }

  /** `value.replace(/[^\d,.-]/g, '')`. */
  function KeepNumericChars(s: string): (r: string)
    ensures |r| <= |s|
    ensures forall i :: 0 <= i < |r| ==> IsNumericChar(r[i])
    ensures (forall i :: 0 <= i < |s| ==> IsNumericChar(s[i])) ==> r == s
  {
    if |s| == 0 then ""
    else (if IsNumericChar(s[0]) then [s[0]] else "") + KeepNumericChars(s[1..])
  }

  lemma {:induction false} KeepNumericCharsAppend(a: string, b: string)
    ensures KeepNumericChars(a + b) == KeepNumericChars(a) + KeepNumericChars(b)
    decreases |a|
  {
    if |a| == 0 {
      assert a + b == b;
    } else {
      assert (a + b)[1..] == a[1..] + b;
      KeepNumericCharsAppend(a[1..], b);
    }
  }

  /** `/^R\$ \d+,\d{2}$/.test(value)`. */
  predicate IsValidCurrency(v: string)
  {
    && |v| >= 7
    && v[..3] == "R$ "
    && AllDigits(v[3..|v| - 3])
    && v[|v| - 3] == ','
    && AllDigits(v[|v| - 2..])
  }

  /** A whole number of cents written as reais and two-digit centavos. */
  function CentsText(n: nat): string
  {
    "R$ " + NatToString(n / 100) + "," + Pad2(n % 100)
  }

  /** Every `CentsText` passes the format check. */
  lemma CentsTextValid(n: nat)
    ensures IsValidCurrency(CentsText(n))
  {
    var q, p := NatToString(n / 100), Pad2(n % 100);
    var r := "R$ " + q + "," + p;
    assert r[..3] == "R$ ";
    assert r[3..|r| - 3] == q;
    assert r[|r| - 2..] == p;
  }

  lemma CentsTextBelowTen(n: nat)
    requires n < 10
    ensures CentsText(n) == "R$ 0,0" + NatToString(n)
  {
    assert n / 100 == 0 && n % 100 == n;
    assert NatToString(0) == "0";
    assert Pad2(n) == "0" + NatToString(n);
  }

  lemma CentsTextBelowHundred(n: nat)
    requires 10 <= n < 100
    ensures CentsText(n) == "R$ 0," + Pad2(n)
  {
    assert NatToString(n / 100) == "0";
  }

  /** The all-digit branch of `formatCurrency`: the digits are read as cents. */
  function FormatWholeCents(n: nat): (r: string)
    ensures r == CentsText(n)
    ensures IsValidCurrency(r)
  {
    CentsTextValid(n);
    if n == 0 then
      CentsTextBelowTen(0);
      Zero
    else if n < 10 then
      CentsTextBelowTen(n);
      "R$ 0,0" + NatToString(n)
    else if n < 100 then
      CentsTextBelowHundred(n);
      "R$ 0," + Pad2(n)
    else
      "R$ " + NatToString(n / 100) + "," + Pad2(n % 100)
  }

  /** The centavos of the single-comma branch: cut to two characters, or padded
      with '0' to two. */
  function FixCents(c: string): (r: string)
    ensures |r| == 2
    ensures |c| >= 2 ==> r == c[..2]
    ensures |c| < 2 ==> r == c + Repeat('0', 2 - |c|)
  {
    if |c| > 2 then c[..2]
    else if |c| == 1 then c + "0"
    else if |c| == 0 then "00"
    else c
  }

  /** `part || '0'`. */
  function OrZero(part: string): string
  {
    if part == "" then "0" else part
  }

  /** The position of the first `c` in `s`. */
  function FirstIndex(s: string, c: char): (k: nat)
    requires c in s
    ensures k < |s| && s[k] == c && c !in s[..k]
  {
    if s[0] == c then 0
    else
      var k := FirstIndex(s[1..], c) + 1;
      assert s[..k] == [s[0]] + s[1..][..k - 1];
      k
  }

  /** `s.replace(a, b)` with a one-character pattern: the first occurrence only. */
  function ReplaceFirst(s: string, a: char, b: char): (r: string)
    ensures |r| == |s|
    ensures a !in s ==> r == s
    ensures a in s ==> r == s[..FirstIndex(s, a)] + [b] + s[FirstIndex(s, a) + 1..]
  {
    if |s| == 0 then ""
    else if s[0] == a then [b] + s[1..]
    else
      var rest := ReplaceFirst(s[1..], a, b);
      assert a in s ==> [s[0]] + rest == s[..FirstIndex(s, a)] + [b] + s[FirstIndex(s, a) + 1..] by {
        if a in s {
          var k := FirstIndex(s[1..], a);
          assert FirstIndex(s, a) == k + 1;
          assert s[..k + 1] == [s[0]] + s[1..][..k];
          assert s[k + 2..] == s[1..][k + 1..];
        }
      }
      [s[0]] + rest
  }

  /** `isNaN(parseFloat(s))`: no decimal literal and no `Infinity` at the start
      (after whitespace and an optional sign). */
  predicate ParseFloatIsNaN(s: string)
  {
    var t := TrimStart(s);
    var u := if |t| > 0 && (t[0] == '-' || t[0] == '+') then t[1..] else t;
    && !(|u| > 0 && IsDigit(u[0]))
    && !(|u| > 1 && u[0] == '.' && IsDigit(u[1]))
    && !StartsWith(u, "Infinity")
  }

  /** `formatCurrency(value)`. The `trim` after stripping has nothing left to
      remove, and `parseInt` of an all-digit text is its decimal value. */
  function FormatCurrency(value: string): (r: Formatted)
    ensures value == "" || value == "R$" || KeepNumericChars(value) == "" ==> r == Exact(Zero)
    ensures r.FloatDependent? ==> r.numeric == KeepNumericChars(value)
  {
    if value == "" || value == "R$" then Exact(Zero)
    else
      var numeric := KeepNumericChars(value);
      if numeric == "" then Exact(Zero)
      else if AllDigits(numeric) then
        var n := DecimalValue(numeric);
        if n < SafeIntegerLimit then Exact(FormatWholeCents(n)) else FloatDependent(numeric)
      else if ',' in numeric && |Split(numeric, ',')| == 2 then
        var parts := Split(numeric, ',');
        Exact("R$ " + OrZero(parts[0]) + "," + FixCents(parts[1]))
      else if '.' in numeric && ',' !in numeric
        && |Split(numeric, '.')| == 2 && |Split(numeric, '.')[1]| <= 2 then
        var parts := Split(numeric, '.');
        Exact("R$ " + OrZero(parts[0]) + "," + PadEnd(parts[1], 2, '0'))
      else if '.' in numeric && |Split(numeric, '.')| > 2 then
        var parts := Split(numeric, '.');
        var cents := PadEnd(parts[|parts| - 1], 2, '0')[..2];
        Exact("R$ " + Join(parts[..|parts| - 1], "") + "," + cents)
      else if ParseFloatIsNaN(ReplaceFirst(numeric, ',', '.')) then
        Exact(if StartsWith(value, "R$") then value else "R$ " + numeric)
      else
        FloatDependent(numeric)
  }

  /** A value whose only numeric characters are digits is read as a number of
      cents, and the result passes the format check. */
  lemma FormatDigits(value: string)
    requires value != "" && value != "R$"
    requires KeepNumericChars(value) != "" && AllDigits(KeepNumericChars(value))
    requires DecimalValue(KeepNumericChars(value)) < SafeIntegerLimit
    ensures FormatCurrency(value) == Exact(CentsText(DecimalValue(KeepNumericChars(value))))
    ensures IsValidCurrency(CentsText(DecimalValue(KeepNumericChars(value))))
  {
  }

  predicate AllNumeric(s: string)
  {
    forall i :: 0 <= i < |s| ==> IsNumericChar(s[i])
  }

  /** Stripping keeps `reais + "," + cents` whole when both parts are digits. */
  lemma KeepDigitsAndComma(reais: string, cents: string)
    requires AllDigits(reais) && AllDigits(cents)
    ensures KeepNumericChars(reais + "," + cents) == reais + "," + cents
  {
    KeepNumericCharsAppend(reais + ",", cents);
    KeepNumericCharsAppend(reais, ",");
    assert AllNumeric(reais) && AllNumeric(cents);
  }

  lemma {:induction false} KeepNoNumericChars(s: string)
    requires forall i :: 0 <= i < |s| ==> !IsNumericChar(s[i])
    ensures KeepNumericChars(s) == ""
    decreases |s|
  {
    if |s| > 0 {
      KeepNoNumericChars(s[1..]);
    }
  }

  /** The currency prefix carries no numeric character. */
  lemma KeepPrefix()
    ensures KeepNumericChars("R$ ") == ""
  {
    KeepNoNumericChars("R$ ");
  }

  /** A well-formed value is the prefix, its reais digits, the comma and its
      two cents digits. */
  lemma ValidCurrencyParts(v: string)
    requires IsValidCurrency(v)
    ensures v == "R$ " + v[3..|v| - 3] + "," + v[|v| - 2..]
  {
    assert v == v[..3] + v[3..|v| - 3] + [v[|v| - 3]] + v[|v| - 2..];
  }

  /** `R$ reais,cents` passes the format check exactly when the reais are one
      or more digits and the cents exactly two digits. */
  lemma ValidCurrencyShape(reais: string, cents: string)
    ensures IsValidCurrency("R$ " + reais + "," + cents)
        <==> reais != "" && AllDigits(reais) && |cents| == 2 && AllDigits(cents)
  {
    var v := "R$ " + reais + "," + cents;
    var k := 3 + |reais|;
    assert v[k] == ',' && v[..3] == "R$ ";
    if IsValidCurrency(v) {
      NoCommaAmongDigits(v[3..|v| - 3], k - 3);
      NoCommaAmongDigits(v[|v| - 2..], k - (|v| - 2));
      assert k == |v| - 3;
      assert v[3..|v| - 3] == reais;
      assert v[|v| - 2..] == cents;
    }
    if reais != "" && AllDigits(reais) && |cents| == 2 && AllDigits(cents) {
      assert |v| - 3 == k;
      assert v[3..k] == reais;
      assert v[k + 1..] == cents;
    }
  }

  /** A run of digits holds no comma. */
  lemma NoCommaAmongDigits(digits: string, i: int)
    requires AllDigits(digits)
    ensures !(0 <= i < |digits| && digits[i] == ',')
  {
  }

  /** A value whose numeric characters hold exactly one comma takes the
      single-comma branch: the reais before the comma ("0" when empty) and the
      centavos after it, fixed to two characters. */
  lemma SingleCommaBranch(value: string)
    requires value != "" && value != "R$"
    requires |Split(KeepNumericChars(value), ',')| == 2
    ensures var parts := Split(KeepNumericChars(value), ',');
      FormatCurrency(value) == Exact("R$ " + OrZero(parts[0]) + "," + FixCents(parts[1]))
  {
    var numeric := KeepNumericChars(value);
    assert ',' in numeric;
    assert !AllDigits(numeric) by {
      var i :| 0 <= i < |numeric| && numeric[i] == ',';
    }
  }

  /** Behind a prefix with no numeric character, digits, a comma and digits
      are stripped to themselves. */
  lemma KeepBehindPrefix(prefix: string, reais: string, cents: string)
    requires KeepNumericChars(prefix) == ""
    requires AllDigits(reais) && AllDigits(cents)
    ensures KeepNumericChars(prefix + reais + "," + cents) == reais + "," + cents
  {
    var numeric := reais + "," + cents;
    assert prefix + reais + "," + cents == prefix + numeric;
    KeepNumericCharsAppend(prefix, numeric);
    KeepDigitsAndComma(reais, cents);
  }

  /** Digits, a comma and digits split at the comma into the two digit runs. */
  lemma SplitDigitsComma(reais: string, cents: string)
    requires AllDigits(reais) && AllDigits(cents)
    ensures Split(reais + "," + cents, ',') == [reais, cents]
  {
    assert ',' !in reais && ',' !in cents by {
      assert AllDigits(reais) && AllDigits(cents);
    }
    SplitTwo(reais, cents, ',');
  }

  /** Digits, a comma and digits behind the prefix go through the single-comma
      branch with those digits as its parts. */
  lemma FormatDigitsCommaDigits(reais: string, cents: string)
    requires reais != "" && AllDigits(reais) && AllDigits(cents)
    ensures FormatCurrency("R$ " + reais + "," + cents) == Exact("R$ " + reais + "," + FixCents(cents))
  {
    var v := "R$ " + reais + "," + cents;
    KeepPrefix();
    KeepBehindPrefix("R$ ", reais, cents);
    SplitDigitsComma(reais, cents);
    assert |v| >= 5;
    SingleCommaBranch(v);
  }

  /** `formatCurrency` leaves a well-formed value as it is. */
  lemma FormatIdempotent(v: string)
    requires IsValidCurrency(v)
    ensures FormatCurrency(v) == Exact(v)
  {
    ValidCurrencyParts(v);
    FormatDigitsCommaDigits(v[3..|v| - 3], v[|v| - 2..]);
  }

  /** A digit typed after the centavos of a well-formed value is dropped again:
      the single-comma branch cuts the centavos back to two characters. */
  lemma TypedDigitAfterCentsDropped(v: string, c: char)
    requires IsValidCurrency(v) && IsDigit(c)
    ensures FormatCurrency(v + [c]) == Exact(v)
  {
    ValidCurrencyParts(v);
    var reais, cents := v[3..|v| - 3], v[|v| - 2..];
    assert v + [c] == "R$ " + reais + "," + (cents + [c]);
    assert AllDigits(cents + [c]);
    FormatDigitsCommaDigits(reais, cents + [c]);
    assert (cents + [c])[..2] == cents;
  }
}

=== FILE: dashboard.dfy ===
/** The statistics of the main page (`initialization.js`): a stricter
    DD/MM/YYYY reader, the fail-safe "really expired" test and the counts
    shown in the tiles. Unlike the table's status, a VENCIDO product whose date
    is missing or unreadable counts as expired here. */
module Dashboard {
  import opened Js
  import opened Text
  import opened Calendar
  import opened Catalog
  import Expiry
  import DateFormat

  /** The day of three parsed fields, when none is NaN and day, month and year
      are in range (1..31, 1..12, from 1900). */
  function CheckedDay(dia: Option<int>, mes: Option<int>, ano: Option<int>): (r: Option<int>)
    ensures r.Some? <==>
      dia.Some? && mes.Some? && ano.Some? && 1 <= dia.value <= 31 && 1 <= mes.value <= 12 && ano.value >= 1900
  {
    if dia.None? || mes.None? || ano.None? then None
    else if dia.value < 1 || dia.value > 31 || mes.value - 1 < 0 || mes.value - 1 > 11 || ano.value < 1900 then None
    else Some(MakeDay(ano.value, mes.value - 1, dia.value))
  }

  /** `parseDataBrasileira(dataBrasil)` as a day number: exactly three
      '/'-separated fields, day 1..31, month 1..12 and year from 1900, with no
      check that the day exists in the month. */
  function ParseDataBrasileira(s: string): (r: Option<int>)
    ensures r.Some? ==> '/' in s && |Split(s, '/')| == 3
    ensures r.Some? ==>
      var parts := Split(s, '/');
      CheckedDay(ParseInt(parts[0]), ParseInt(parts[1]), ParseInt(parts[2])).Some?
  {
    if s == "" || '/' !in s then None
    else
      var parts := Split(s, '/');
      if |parts| != 3 then None
      else CheckedDay(ParseInt(parts[0]), ParseInt(parts[1]), ParseInt(parts[2]))
  }

  /** `isProdutoVencido(produto)` with today's day number. */
  function IsProdutoVencido(p: Product, today: int): (r: bool)
    ensures p.motivo != MotivoVencido ==> !r
    ensures p.motivo == MotivoVencido && IsBlank(p.dataVencimento) ==> r
    ensures p.motivo == MotivoVencido && ParseDataBrasileira(p.dataVencimento).None? ==> r
    ensures p.motivo == MotivoVencido && ParseDataBrasileira(p.dataVencimento).Some? ==>
      (r <==> ParseDataBrasileira(p.dataVencimento).value < today)
  {
    if p.motivo != MotivoVencido then false
    else if Trim(p.dataVencimento) == "" then true
    else
      match ParseDataBrasileira(p.dataVencimento)
      case None => true
      case Some(day) => day < today
  }

  /** Where the dashboard reads a date, the table reads the same day. */
  lemma SameDueDay(s: string)
    requires ParseDataBrasileira(s).Some?
    ensures Expiry.DueDay(s) == ParseDataBrasileira(s)
  {
    var parts := Split(s, '/');
    ReadThreeFields(s);
    var dia, mes, ano := ParseInt(parts[0]).value, ParseInt(parts[1]).value, ParseInt(parts[2]).value;
    Expiry.DueDayOfParts(s, dia, mes, ano);
    CheckedDayInRange(dia, mes, ano);
  }

  /** For a date the dashboard can read, a VENCIDO product counts as expired
      exactly when the table shows it as VENCIDO; a product due today shows
      HOJE in a 'vencido' cell but does not count. */
  lemma ClassifiersAgreeOnReadableDates(p: Product, today: int)
    requires p.motivo == MotivoVencido && ParseDataBrasileira(p.dataVencimento).Some?
    ensures IsProdutoVencido(p, today) <==> Expiry.StatusFor(p.motivo, p.dataVencimento, today).Overdue?
  {
    SameDueDay(p.dataVencimento);
  }

  /** A VENCIDO product whose date was stored in ISO form is expired for the
      dashboard but has no status (N/A) in the table. */
  lemma ClassifiersDisagreeOnIsoDates(p: Product, d: DateFormat.Ymd, today: int)
    requires DateFormat.InRange(d)
    requires p.motivo == MotivoVencido && p.dataVencimento == DateFormat.IsoText(d)
    ensures IsProdutoVencido(p, today)
    ensures Expiry.StatusFor(p.motivo, p.dataVencimento, today) == Expiry.NoDate
  {
  }

  /** A text that splits into three fields is read through those fields. */
  lemma ReadThreeFields(s: string)
    requires |Split(s, '/')| == 3
    ensures var parts := Split(s, '/');
      ParseDataBrasileira(s) == CheckedDay(ParseInt(parts[0]), ParseInt(parts[1]), ParseInt(parts[2]))
  {
    assert '/' in s && s != "";
  }

  /** Three fields in range are read as their day. */
  lemma ReadFields(s: string, dia: int, mes: int, ano: int)
    requires |Split(s, '/')| == 3
    requires ParseInt(Split(s, '/')[0]) == Some(dia) && ParseInt(Split(s, '/')[1]) == Some(mes)
    requires ParseInt(Split(s, '/')[2]) == Some(ano)
    requires 1 <= dia <= 31 && 1 <= mes <= 12 && ano >= 1900
    ensures ParseDataBrasileira(s) == Some(MakeDay(ano, mes - 1, dia))
  {
    ReadThreeFields(s);
    CheckedDayInRange(dia, mes, ano);
  }

  lemma CheckedDayInRange(dia: int, mes: int, ano: int)
    requires 1 <= dia <= 31 && 1 <= mes <= 12 && ano >= 1900
    ensures CheckedDay(Some(dia), Some(mes), Some(ano)) == Some(MakeDay(ano, mes - 1, dia))
  {
  }

  /** A date the product form writes is read by the dashboard as that calendar
      day. */
  lemma FormDatesRead(d: DateFormat.Ymd)
    requires DateFormat.InRange(d)
    ensures ParseDataBrasileira(DateFormat.BrazilianText(d)) == Some(MakeDay(d.year, d.month - 1, d.day))
  {
    DateFormat.BrazilianFields(d);
    ParseNatToString(d.year);
    ParsePad2(d.month);
    ParsePad2(d.day);
    ReadFields(DateFormat.BrazilianText(d), d.day, d.month, d.year);
  }

  /** The 31st of February passes the reader and lands in March. */
  lemma NoDayInMonthCheck(y: int)
    requires 1900 <= y <= 2100
    ensures ParseDataBrasileira(DateFormat.BrazilianText(DateFormat.Ymd(y, 2, 31)))
         == Some(MakeDay(y, 2, 31 - DaysInMonth(y, 2)))
  {
    FormDatesRead(DateFormat.Ymd(y, 2, 31));
    FebruaryOverflow(y);
  }

  lemma FebruaryOverflow(y: int)
    ensures MakeDay(y, 1, 31) == MakeDay(y, 2, 31 - DaysInMonth(y, 2))
  {
    assert 1 / 12 == 0 && 1 % 12 == 1 && 2 / 12 == 0 && 2 % 12 == 2;
  }

  /** The tiles of `updateProductStats`. */
  datatype Stats = Stats(
    total: nat,
    vencidos: nat,
    comMotivoVencido: nat,
    vencidosProximos: int,
    usoLoja: nat,
    avariados: nat,
    restaurante: nat)

  /** How many products carry exactly this motivo. */
  function CountMotivo(products: seq<Product>, motivo: string): (n: nat)
    ensures n <= |products|
    decreases |products|
  {
    if products == [] then 0
    else
      CountMotivo(products[..|products| - 1], motivo)
      + (if products[|products| - 1].motivo == motivo then 1 else 0)
  }

  /** A reason count is 0 exactly when no product has the reason, and the whole
      list exactly when every product has it. */
  lemma {:induction false} CountMotivoExtremes(products: seq<Product>, motivo: string)
    ensures CountMotivo(products, motivo) == 0 <==> forall i :: 0 <= i < |products| ==> products[i].motivo != motivo
    ensures CountMotivo(products, motivo) == |products| <==> forall i :: 0 <= i < |products| ==> products[i].motivo == motivo
    decreases |products|
  {
    if products != [] {
      var init := products[..|products| - 1];
      CountMotivoExtremes(init, motivo);
      assert forall i :: 0 <= i < |init| ==> init[i] == products[i];
    }
  }

  /** How many products `isProdutoVencido` accepts. */
  function CountVencidos(products: seq<Product>, today: int): (n: nat)
    ensures n <= CountMotivo(products, MotivoVencido)
    decreases |products|
  {
    if products == [] then 0
    else
      CountVencidos(products[..|products| - 1], today)
      + (if IsProdutoVencido(products[|products| - 1], today) then 1 else 0)
  }

  /** The counting part of `updateProductStats(products)`. */
  method ProductStats(products: seq<Product>, today: int) returns (s: Stats)
    ensures s.total == |products|
    ensures s.vencidos == CountVencidos(products, today)
    ensures s.comMotivoVencido == CountMotivo(products, MotivoVencido)
    ensures s.usoLoja == CountMotivo(products, MotivoUsoLoja)
    ensures s.avariados == CountMotivo(products, MotivoAvariado)
    ensures s.restaurante == CountMotivo(products, MotivoRestaurante)
    ensures s.vencidos <= s.comMotivoVencido && s.vencidosProximos >= 0
    ensures s.vencidos + s.vencidosProximos == s.comMotivoVencido
  {
    var vencidos, comMotivo, usoLoja, avariados, restaurante := 0, 0, 0, 0, 0;
    var i := 0;
    while i < |products|
      invariant 0 <= i <= |products|
      invariant vencidos == CountVencidos(products[..i], today)
      invariant comMotivo == CountMotivo(products[..i], MotivoVencido)
      invariant usoLoja == CountMotivo(products[..i], MotivoUsoLoja)
      invariant avariados == CountMotivo(products[..i], MotivoAvariado)
      invariant restaurante == CountMotivo(products[..i], MotivoRestaurante)
    {
      var p := products[i];
      assert products[..i + 1][..i] == products[..i];
      if IsProdutoVencido(p, today) { vencidos := vencidos + 1; }
      if p.motivo == MotivoVencido { comMotivo := comMotivo + 1; }
      if p.motivo == MotivoUsoLoja { usoLoja := usoLoja + 1; }
      if p.motivo == MotivoAvariado { avariados := avariados + 1; }
      if p.motivo == MotivoRestaurante { restaurante := restaurante + 1; }
      i := i + 1;
    }
    assert products[..|products|] == products;
    s := Stats(|products|, vencidos, comMotivo, comMotivo - vencidos, usoLoja, avariados, restaurante);
  }

  /** The four reason tiles never count more products than there are. */
  lemma {:induction false} ReasonCountsWithinTotal(products: seq<Product>)
    ensures CountMotivo(products, MotivoVencido) + CountMotivo(products, MotivoUsoLoja)
      + CountMotivo(products, MotivoAvariado) + CountMotivo(products, MotivoRestaurante) <= |products|
    decreases |products|
  {
    if products != [] {
      ReasonCountsWithinTotal(products[..|products| - 1]);
    }
  }
}

=== FILE: dateformat.dfy ===
/** The two date conversions of the product form: `formatDateToBrazilian`
    (YYYY-MM-DD to DD/MM/YYYY, for the table and the edit form) and
    `formatDateToISO` (DD/MM/YYYY to YYYY-MM-DD, for the date input). Both read
    the three fields with `parseInt`, accept years 1900..2100, months 1..12 and
    days 1..31 (with no check of the month's length), and return the input
    unchanged otherwise. */
module DateFormat {
  import opened Js
  import opened Text

  datatype Ymd = Ymd(year: int, month: int, day: int)

  /** The range both conversions accept. */
  predicate InRange(d: Ymd)
  {
    1900 <= d.year <= 2100 && 1 <= d.month <= 12 && 1 <= d.day <= 31
  }

  /** `YYYY-MM-DD`; it never holds the '/' of the Brazilian spelling. */
  function IsoText(d: Ymd): (iso: string)
    requires InRange(d)
    ensures '/' !in iso
  {
    assert '/' !in "-";
    NoSeparatorInJoined(NatToString(d.year), Pad2(d.month), Pad2(d.day), "-", '/');
    NatToString(d.year) + "-" + Pad2(d.month) + "-" + Pad2(d.day)
  }

  /** `DD/MM/YYYY`. */
  function BrazilianText(d: Ymd): string
    requires InRange(d)
  {
    Pad2(d.day) + "/" + Pad2(d.month) + "/" + NatToString(d.year)
  }

  /** The shape of a Brazilian date: two digits, '/', two digits, '/', four digits. */
  predicate IsBrazilianShape(s: string)
  {
    && |s| == 10 && s[2] == '/' && s[5] == '/'
    && AllDigits(s[..2]) && AllDigits(s[3..5]) && AllDigits(s[6..])
  }

  /** The shape of an ISO date: four digits, '-', two digits, '-', two digits. */
  predicate IsIsoShape(s: string)
  {
    && |s| == 10 && s[4] == '-' && s[7] == '-'
    && AllDigits(s[..4]) && AllDigits(s[5..7]) && AllDigits(s[8..])
  }

  lemma BrazilianShapeOfParts(dd: string, mm: string, yyyy: string)
    requires |dd| == 2 && |mm| == 2 && |yyyy| == 4
    requires AllDigits(dd) && AllDigits(mm) && AllDigits(yyyy)
    ensures IsBrazilianShape(dd + "/" + mm + "/" + yyyy)
  {
    var s := dd + "/" + mm + "/" + yyyy;
    assert s[..2] == dd && s[3..5] == mm && s[6..] == yyyy;
  }

  lemma IsoShapeOfParts(yyyy: string, mm: string, dd: string)
    requires |dd| == 2 && |mm| == 2 && |yyyy| == 4
    requires AllDigits(dd) && AllDigits(mm) && AllDigits(yyyy)
    ensures IsIsoShape(yyyy + "-" + mm + "-" + dd)
  {
    var s := yyyy + "-" + mm + "-" + dd;
    assert s[..4] == yyyy && s[5..7] == mm && s[8..] == dd;
  }

  lemma BrazilianTextShape(d: Ymd)
    requires InRange(d)
    ensures IsBrazilianShape(BrazilianText(d))
  {
    NatToStringFourDigits(d.year);
    BrazilianShapeOfParts(Pad2(d.day), Pad2(d.month), NatToString(d.year));
  }

  lemma IsoTextShape(d: Ymd)
    requires InRange(d)
    ensures IsIsoShape(IsoText(d))
  {
    NatToStringFourDigits(d.year);
    IsoShapeOfParts(NatToString(d.year), Pad2(d.month), Pad2(d.day));
  }

  /** `parseInt` of the year, month and day fields, kept only when all three are
      numbers inside the accepted range. */
  function ReadDate(year: string, month: string, day: string): (r: Option<Ymd>)
    ensures r.Some? ==> InRange(r.value)
    ensures r.Some? ==>
      ParseInt(year) == Some(r.value.year) && ParseInt(month) == Some(r.value.month)
      && ParseInt(day) == Some(r.value.day)
  {
    var y, m, d := ParseInt(year), ParseInt(month), ParseInt(day);
    if y.Some? && m.Some? && d.Some? && InRange(Ymd(y.value, m.value, d.value)) then
      Some(Ymd(y.value, m.value, d.value))
    else None
  }

  /** Exactly three fields, which read as a date with the year, month and day
      at the given positions. */
  predicate Readable(parts: seq<string>, y: nat, m: nat, d: nat)
    requires y < 3 && m < 3 && d < 3
  {
    |parts| == 3 && ReadDate(parts[y], parts[m], parts[d]).Some?
  }

  /** Fields that `parseInt` reads as a date in range are read as that date. */
  lemma ReadDateOfParsed(year: string, month: string, day: string, d: Ymd)
    requires InRange(d)
    requires ParseInt(year) == Some(d.year) && ParseInt(month) == Some(d.month)
    requires ParseInt(day) == Some(d.day)
    ensures ReadDate(year, month, day) == Some(d)
  {
  }

  /** `formatDateToBrazilian(isoDate)`: "" without a '-', the Brazilian spelling
      of a readable date, the input itself otherwise. */
  function FormatDateToBrazilian(iso: string): (r: string)
    ensures r == "" <==> '-' !in iso
    ensures r == "" || r == iso || IsBrazilianShape(r)
    ensures '-' in iso && !Readable(Split(iso, '-'), 0, 1, 2) ==> r == iso
    ensures '-' in iso && Readable(Split(iso, '-'), 0, 1, 2) ==> IsBrazilianShape(r)
  {
    if iso == "" || '-' !in iso then ""
    else
      var parts := Split(iso, '-');
      if |parts| == 3 then
        match ReadDate(parts[0], parts[1], parts[2])
        case Some(d) =>
          BrazilianTextShape(d);
          BrazilianText(d)
        case None => iso
      else iso
  }

  /** `formatDateToISO(brazilianDate)`: "" without a '/', the ISO spelling of a
      readable date, the input itself otherwise. */
  function FormatDateToIso(br: string): (r: string)
    ensures r == "" <==> '/' !in br
    ensures r == "" || r == br || IsIsoShape(r)
    ensures '/' in br && !Readable(Split(br, '/'), 2, 1, 0) ==> r == br
    ensures '/' in br && Readable(Split(br, '/'), 2, 1, 0) ==> IsIsoShape(r)
  {
    if br == "" || '/' !in br then ""
    else
      var parts := Split(br, '/');
      if |parts| == 3 then
        match ReadDate(parts[2], parts[1], parts[0])
        case Some(d) =>
          IsoTextShape(d);
          IsoText(d)
        case None => br
      else br
  }

  lemma ReadDateOfTexts(d: Ymd)
    requires InRange(d)
    ensures ReadDate(NatToString(d.year), Pad2(d.month), Pad2(d.day)) == Some(d)
  {
    ParseNatToString(d.year);
    ParsePad2(d.month);
    ParsePad2(d.day);
    ReadDateOfParsed(NatToString(d.year), Pad2(d.month), Pad2(d.day), d);
  }

  lemma NoSeparatorInDigits(s: string, sep: char)
    requires AllDigits(s) && !IsDigit(sep)
    ensures sep !in s
  {
  }

  /** A text with '-' that splits into three fields reading as a date is
      converted to that date's Brazilian spelling. */
  lemma BrazilianOfSplit(iso: string, d: Ymd)
    requires '-' in iso && |Split(iso, '-')| == 3
    requires ReadDate(Split(iso, '-')[0], Split(iso, '-')[1], Split(iso, '-')[2]) == Some(d)
    ensures FormatDateToBrazilian(iso) == BrazilianText(d)
  {
  }

  /** A text with '/' that splits into three fields reading as a date (day,
      month, year) is converted to that date's ISO spelling. */
  lemma IsoOfSplit(br: string, d: Ymd)
    requires '/' in br && |Split(br, '/')| == 3
    requires ReadDate(Split(br, '/')[2], Split(br, '/')[1], Split(br, '/')[0]) == Some(d)
    ensures FormatDateToIso(br) == IsoText(d)
  {
  }

  /** Three '-'-free fields that read as a date are converted to that date's
      Brazilian spelling. */
  lemma BrazilianOfFields(year: string, month: string, day: string, d: Ymd)
    requires '-' !in year && '-' !in month && '-' !in day
    requires ReadDate(year, month, day) == Some(d)
    ensures FormatDateToBrazilian(year + "-" + month + "-" + day) == BrazilianText(d)
  {
    var iso := year + "-" + month + "-" + day;
    SplitThree(year, month, day, '-');
    assert iso[|year|] == '-';
    BrazilianOfSplit(iso, d);
  }

  /** Three '/'-free fields that read as a date are converted to that date's
      ISO spelling. */
  lemma IsoOfFields(day: string, month: string, year: string, d: Ymd)
    requires '/' !in year && '/' !in month && '/' !in day
    requires ReadDate(year, month, day) == Some(d)
    ensures FormatDateToIso(day + "/" + month + "/" + year) == IsoText(d)
  {
    var br := day + "/" + month + "/" + year;
    SplitThree(day, month, year, '/');
    assert br[|day|] == '/';
    IsoOfSplit(br, d);
  }

  /** The fields of a Brazilian date as written. */
  lemma BrazilianFields(d: Ymd)
    requires InRange(d)
    ensures Split(BrazilianText(d), '/') == [Pad2(d.day), Pad2(d.month), NatToString(d.year)]
  {
    var y, m, dd := NatToString(d.year), Pad2(d.month), Pad2(d.day);
    NoSeparatorInDigits(y, '/');
    NoSeparatorInDigits(m, '/');
    NoSeparatorInDigits(dd, '/');
    SplitThree(dd, m, y, '/');
  }

  /** Three digit runs joined by a character other than `sep` hold no `sep`. */
  lemma NoSeparatorInJoined(a: string, b: string, c: string, joiner: string, sep: char)
    requires AllDigits(a) && AllDigits(b) && AllDigits(c) && !IsDigit(sep) && sep !in joiner
    ensures sep !in a + joiner + b + joiner + c
  {
    NoSeparatorInDigits(a, sep);
    NoSeparatorInDigits(b, sep);
    NoSeparatorInDigits(c, sep);
  }

  /** An ISO date in range becomes its Brazilian spelling. */
  lemma BrazilianOfIso(d: Ymd)
    requires InRange(d)
    ensures FormatDateToBrazilian(IsoText(d)) == BrazilianText(d)
  {
    var y, m, dd := NatToString(d.year), Pad2(d.month), Pad2(d.day);
    NoSeparatorInDigits(y, '-');
    NoSeparatorInDigits(m, '-');
    NoSeparatorInDigits(dd, '-');
    ReadDateOfTexts(d);
    BrazilianOfFields(y, m, dd, d);
  }

  /** A Brazilian date in range becomes its ISO spelling. */
  lemma IsoOfBrazilian(d: Ymd)
    requires InRange(d)
    ensures FormatDateToIso(BrazilianText(d)) == IsoText(d)
  {
    var y, m, dd := NatToString(d.year), Pad2(d.month), Pad2(d.day);
    NoSeparatorInDigits(y, '/');
    NoSeparatorInDigits(m, '/');
    NoSeparatorInDigits(dd, '/');
    ReadDateOfTexts(d);
    IsoOfFields(dd, m, y, d);
  }

  /** Filling the date input from the table and reading it back gives the same
      ISO date. */
  lemma IsoRoundTrip(d: Ymd)
    requires InRange(d)
    ensures FormatDateToIso(FormatDateToBrazilian(IsoText(d))) == IsoText(d)
  {
    BrazilianOfIso(d);
    IsoOfBrazilian(d);
  }

  lemma BrazilianRoundTrip(d: Ymd)
    requires InRange(d)
    ensures FormatDateToBrazilian(FormatDateToIso(BrazilianText(d))) == BrazilianText(d)
  {
    IsoOfBrazilian(d);
    BrazilianOfIso(d);
  }

  /** Whatever ISO text the conversion accepts, converting to Brazilian, back
      to ISO and to Brazilian again changes nothing further: the first
      conversion normalises the fields (leading zeros, signs, trailing text
      after the digits). */
  lemma BrazilianNormalises(iso: string)
    requires FormatDateToBrazilian(iso) != iso && '-' in iso
    ensures FormatDateToBrazilian(FormatDateToIso(FormatDateToBrazilian(iso)))
         == FormatDateToBrazilian(iso)
  {
    var parts := Split(iso, '-');
    assert Readable(parts, 0, 1, 2);
    var d := ReadDate(parts[0], parts[1], parts[2]).value;
    BrazilianOfSplit(iso, d);
    BrazilianRoundTrip(d);
  }
}

=== FILE: expiry.dfy ===
/** The expiry status of the product table (`calcularDiasParaVencimento` and
    `getTooltipText`): a DD/MM/YYYY due date is read with `parseInt`, turned
    into a local calendar day, and compared with today in whole days. Today is
    a day number given by the caller. */
module Expiry {
  import opened Js
  import opened Text
  import opened Calendar
  import opened Catalog

  /** The status object: no date (`'sem-vencimento'`), overdue by some days,
      due today, due within a week, or due later. */
  datatype Status = NoDate | Overdue(daysAgo: nat) | DueToday | DueSoon(days: nat) | Valid(days: nat)

  /** The `status` field, used as the cell's CSS class. */
  function CssClass(s: Status): string
  {
    match s
    case NoDate => "sem-vencimento"
    case Overdue(_) => "vencido"
    case DueToday => "vencido"
    case DueSoon(_) => "proximo-vencimento"
    case Valid(_) => "normal"
  }

  /** "" or "s", for `dia${n > 1 ? 's' : ''}`. */
  function Plural(n: int): string
  {
    if n > 1 then "s" else ""
  }

  /** The `texto` field, shown in the status cell. */
  function Label(s: Status): string
  {
    match s
    case NoDate => "N/A"
    case Overdue(_) => "VENCIDO"
    case DueToday => "HOJE"
    case DueSoon(n) => NatToString(n) + " dia" + Plural(n)
    case Valid(n) => NatToString(n) + " dias"
  }

  const OverduePrefix := "Produto vencido há "
  const TodayTooltip := "Produto vence hoje!"
  const SoonPrefix := "Atenção: vence em "
  const ValidPrefix := "Produto válido por mais "
  const NoDateTooltip := "Produto não possui data de vencimento"

  /** `getTooltipText`. An overdue status always carries a positive
      `diasVencido`, so its tooltip names the days. */
  function Tooltip(s: Status): (t: string)
    ensures s == NoDate <==> t == NoDateTooltip
    ensures s == DueToday <==> t == TodayTooltip
  {
    match s
    case NoDate => NoDateTooltip
    case Overdue(n) =>
      var t := if n != 0 then Counted(OverduePrefix, n, " dia" + Plural(n)) else "Produto vencido";
      assert t[8] == 'v' && t[12] == 'i';
      t
    case DueToday => TodayTooltip
    case DueSoon(n) =>
      var t := Counted(SoonPrefix, n, " dia" + Plural(n));
      assert t[0] == 'A';
      t
    case Valid(n) =>
      var t := Counted(ValidPrefix, n, " dias");
      assert t[8] == 'v' && t[9] == 'á';
      t
  }

  /** A text naming a number of days: `${prefix}${n}${unit}`. */
  function Counted(prefix: string, n: nat, unit: string): (t: string)
    ensures |t| >= |prefix| && t[..|prefix|] == prefix
  {
    prefix + NatToString(n) + unit
  }

  /** The decimal number written right after `prefix`, if any. */
  function CountAfter(t: string, prefix: string): Option<nat>
    requires StartsWith(t, prefix)
  {
    var digits := DigitPrefix(t[|prefix|..]);
    if digits == "" then None else Some(DecimalValue(digits))
  }

  /** The status a tooltip text describes, read back from the text: the
      kind from its wording and the count from the number after the prefix. */
  function ReadTooltipStatus(t: string): Option<Status>
  {
    if t == NoDateTooltip then Some(NoDate)
    else if StartsWith(t, OverduePrefix) then
      match CountAfter(t, OverduePrefix)
      case Some(n) => Some(Overdue(n))
      case None => None
    else if t == TodayTooltip then Some(DueToday)
    else if StartsWith(t, SoonPrefix) then
      match CountAfter(t, SoonPrefix)
      case Some(n) => Some(DueSoon(n))
      case None => None
    else if StartsWith(t, ValidPrefix) then
      match CountAfter(t, ValidPrefix)
      case Some(n) => Some(Valid(n))
      case None => None
    else None
  }

  /** The day difference a status stands for: negative for the days overdue,
      0 for today, positive for the days left, none without a date. */
  function DayDiff(s: Status): Option<int>
  {
    match s
    case NoDate => None
    case Overdue(n) => Some(0 - n)
    case DueToday => Some(0)
    case DueSoon(n) => Some(n)
    case Valid(n) => Some(n)
  }

  /** The day difference a tooltip names. */
  function ReadTooltip(t: string): Option<int>
  {
    match ReadTooltipStatus(t)
    case Some(s) => DayDiff(s)
    case None => None
  }

  /** A prefix, a day count and a unit: the number after the prefix is the
      count. */
  lemma ReadCountAfter(prefix: string, n: nat, unit: string)
    requires unit != "" && !IsDigit(unit[0])
    ensures StartsWith(Counted(prefix, n, unit), prefix)
    ensures CountAfter(Counted(prefix, n, unit), prefix) == Some(n)
  {
    var t := Counted(prefix, n, unit);
    assert t[|prefix|..] == NatToString(n) + unit;
    DigitPrefixOfDigits(NatToString(n), unit);
  }

  /** The characters that tell the tooltip texts apart. */
  lemma TooltipTextsDiffer()
    ensures |OverduePrefix| == 19 && |SoonPrefix| == 18 && |ValidPrefix| == 24 && |TodayTooltip| == 19
    ensures OverduePrefix[12] == 'i' && TodayTooltip[12] == 'e'
    ensures SoonPrefix[0] == 'A' && OverduePrefix[0] == 'P' && TodayTooltip[0] == 'P'
    ensures ValidPrefix[0] == 'P' && ValidPrefix[9] == 'á' && OverduePrefix[9] == 'e' && TodayTooltip[9] == 'e'
  {
  }

  lemma ReadOverdueTooltip(n: nat)
    requires n > 0
    ensures ReadTooltipStatus(Tooltip(Overdue(n))) == Some(Overdue(n))
  {
    var t := Counted(OverduePrefix, n, " dia" + Plural(n));
    assert Tooltip(Overdue(n)) == t;
    ReadCountAfter(OverduePrefix, n, " dia" + Plural(n));
    TooltipTextsDiffer();
    assert t[12] == 'i';
    assert t != NoDateTooltip && StartsWith(t, OverduePrefix);
  }

  lemma ReadSoonTooltip(n: nat)
    ensures ReadTooltipStatus(Tooltip(DueSoon(n))) == Some(DueSoon(n))
  {
    var t := Counted(SoonPrefix, n, " dia" + Plural(n));
    assert Tooltip(DueSoon(n)) == t;
    ReadCountAfter(SoonPrefix, n, " dia" + Plural(n));
    TooltipTextsDiffer();
    assert t[0] == 'A';
    assert t != NoDateTooltip && t != TodayTooltip;
    assert !StartsWith(t, OverduePrefix) && StartsWith(t, SoonPrefix);
  }

  lemma ReadValidTooltip(n: nat)
    ensures ReadTooltipStatus(Tooltip(Valid(n))) == Some(Valid(n))
  {
    var t := Counted(ValidPrefix, n, " dias");
    assert Tooltip(Valid(n)) == t;
    ReadCountAfter(ValidPrefix, n, " dias");
    TooltipTextsDiffer();
    assert t[0] == 'P' && t[9] == 'á';
    assert t != NoDateTooltip && t != TodayTooltip;
    assert !StartsWith(t, OverduePrefix) && !StartsWith(t, SoonPrefix);
    assert StartsWith(t, ValidPrefix);
  }

  lemma ReadTodayTooltip()
    ensures ReadTooltipStatus(Tooltip(DueToday)) == Some(DueToday)
  {
    TooltipTextsDiffer();
    assert TodayTooltip[..|OverduePrefix|][12] != OverduePrefix[12];
    assert TodayTooltip != NoDateTooltip && !StartsWith(TodayTooltip, OverduePrefix);
  }

  /** Every tooltip describes its status: reading the text back gives the
      status it was written for, kind and count, for the no-date status and
      for every status a day difference is classified as. */
  lemma TooltipNamesStatus(diff: int)
    ensures ReadTooltipStatus(Tooltip(NoDate)) == Some(NoDate)
    ensures ReadTooltipStatus(Tooltip(Classify(diff))) == Some(Classify(diff))
  {
    if diff < 0 {
      ReadOverdueTooltip(-diff);
    } else if diff == 0 {
      ReadTodayTooltip();
    } else if diff <= 7 {
      ReadSoonTooltip(diff);
    } else {
      ReadValidTooltip(diff);
    }
  }

  /** Every dated tooltip names its day difference: reading it back gives the
      difference the status was classified from. */
  lemma TooltipNamesDiff(diff: int)
    ensures ReadTooltip(Tooltip(Classify(diff))) == Some(diff)
  {
    var t := Tooltip(Classify(diff));
    TooltipNamesStatus(diff);
    assert ReadTooltip(t) == DayDiff(Classify(diff));
    ClassifyDayDiff(diff);
  }

  /** The status of a day difference stands for that difference. */
  lemma ClassifyDayDiff(diff: int)
    ensures DayDiff(Classify(diff)) == Some(diff)
  {
  }

  /** The warning of a product due in `n` days: `dia` for one day, `dias`
      for more. */
  lemma SoonTooltipText(n: nat)
    requires n > 0
    ensures Tooltip(DueSoon(n)) == SoonPrefix + (NatToString(n) + (if n == 1 then " dia" else " dias"))
  {
    assert " dia" + Plural(n) == (if n == 1 then " dia" else " dias");
  }

  /** The tooltip of a product due later: always `dias`. */
  lemma ValidTooltipText(n: nat)
    ensures Tooltip(Valid(n)) == ValidPrefix + (NatToString(n) + " dias")
  {
  }

  /** The label of a product due tomorrow. */
  lemma OneDayLabel()
    ensures Label(DueSoon(1)) == "1 dia"
  {
    assert NatToString(1) == "1";
    assert Plural(1) == "";
  }

  /** The status for a due date `diff` days from today. */
  function Classify(diff: int): (s: Status)
    ensures s.Overdue? <==> diff < 0
    ensures s == DueToday <==> diff == 0
    ensures s != NoDate && CssClass(s) != "sem-vencimento"
    ensures diff < 0 ==> CssClass(s) == "vencido" && Label(s) == "VENCIDO" && s.daysAgo == -diff
    ensures diff == 0 ==> CssClass(s) == "vencido" && Label(s) == "HOJE"
    ensures 1 <= diff <= 7 ==>
      CssClass(s) == "proximo-vencimento" && Label(s) == NatToString(diff) + (if diff == 1 then " dia" else " dias")
    ensures diff > 7 ==> CssClass(s) == "normal" && Label(s) == NatToString(diff) + " dias"
  {
    if diff < 0 then Overdue(-diff)
    else if diff == 0 then DueToday
    else if diff <= 7 then DueSoon(diff)
    else Valid(diff)
  }

  /** The day number of a DD/MM/YYYY text: None (an N/A status) when the text is
      blank, does not have exactly three '/'-separated parts, or any part is
      NaN for `parseInt`. Day and month may overflow, as in `new Date`. */
  function DueDay(date: string): (r: Option<int>)
    ensures IsBlank(date) ==> r == None
    ensures |Split(date, '/')| != 3 ==> r == None
    ensures r.Some? ==> ParseInt(Split(date, '/')[0]).Some? && ParseInt(Split(date, '/')[1]).Some?
    ensures r.Some? ==> ParseInt(Split(date, '/')[2]).Some?
  {
    if Trim(date) == "" then None else DayOfParts(Split(date, '/'))
  }

  /** The day of `[dia, mes, ano]` read with `parseInt`. */
  function DayOfParts(parts: seq<string>): Option<int>
  {
    if |parts| != 3 then None else DayOf(ParseInt(parts[0]), ParseInt(parts[1]), ParseInt(parts[2]))
  }

  /** `new Date(ano, mes - 1, dia)`, or None when a field is NaN. */
  function DayOf(dia: Option<int>, mes: Option<int>, ano: Option<int>): Option<int>
  {
    if dia.None? || mes.None? || ano.None? then None
    else Some(MakeDay(ano.value, mes.value - 1, dia.value))
  }

  /** Three parts that `parseInt` all reads give their day. */
  lemma DayOfPartsRead(parts: seq<string>, dia: int, mes: int, ano: int)
    requires |parts| == 3
    requires ParseInt(parts[0]) == Some(dia) && ParseInt(parts[1]) == Some(mes) && ParseInt(parts[2]) == Some(ano)
    ensures DayOfParts(parts) == Some(MakeDay(ano, mes - 1, dia))
  {
    assert DayOfParts(parts) == DayOf(Some(dia), Some(mes), Some(ano));
    DayOfFields(dia, mes, ano);
  }

  lemma DayOfFields(dia: int, mes: int, ano: int)
    ensures DayOf(Some(dia), Some(mes), Some(ano)) == Some(MakeDay(ano, mes - 1, dia))
  {
  }

  /** A text of three '/'-separated parts that `parseInt` all reads is the
      day `new Date(ano, mes - 1, dia)`, whatever the size of day and month. */
  lemma DueDayOfParts(date: string, dia: int, mes: int, ano: int)
    requires |Split(date, '/')| == 3
    requires ParseInt(Split(date, '/')[0]) == Some(dia) && ParseInt(Split(date, '/')[1]) == Some(mes)
    requires ParseInt(Split(date, '/')[2]) == Some(ano)
    ensures DueDay(date) == Some(MakeDay(ano, mes - 1, dia))
  {
    var parts := Split(date, '/');
    assert '/' in date;
    DueDayReadsParts(date);
    DayOfPartsRead(parts, dia, mes, ano);
  }

  /** A text with a '/' is not blank, so its parts are read. */
  lemma DueDayReadsParts(date: string)
    requires '/' in date
    ensures DueDay(date) == DayOfParts(Split(date, '/'))
  {
    var k :| 0 <= k < |date| && date[k] == '/';
    assert !IsWhitespace(date[k]);
    assert Trim(date) != "";
  }

  /** `calcularDiasParaVencimento(dataVencimento)` with today's day number. */
  function DiasParaVencimento(date: string, today: int): (s: Status)
    ensures s == NoDate <==> DueDay(date).None?
    ensures s.Overdue? <==> DueDay(date).Some? && DueDay(date).value < today
    ensures s == DueToday <==> DueDay(date) == Some(today)
    ensures DueDay(date).Some? ==> s == Classify(DueDay(date).value - today)
  {
    var due := DueDay(date);
    if due.None? then NoDate else Classify(due.value - today)
  }

  /** The status selection of `addProductToTable` and `updateProductInTable`:
      only a VENCIDO product has its date looked at. */
  function StatusFor(motivo: string, date: string, today: int): (s: Status)
    ensures motivo != MotivoVencido ==> s == NoDate && Label(s) == "N/A" && CssClass(s) == "sem-vencimento"
    ensures motivo == MotivoVencido ==> s == DiasParaVencimento(date, today)
  {
    if motivo == MotivoVencido then DiasParaVencimento(date, today) else NoDate
  }

  /** Statuses other than N/A, HOJE and VENCIDO start with the number of days,
      which `parseInt` reads back. */
  lemma LabelStatesDays(diff: int)
    requires diff > 0
    ensures ParseInt(Label(Classify(diff))) == Some(diff)
  {
    var n: nat := diff;
    NatToStringDigits(n);
    var rest := if diff <= 7 then " dia" + Plural(n) else " dias";
    assert Label(Classify(diff)) == NatToString(n) + rest;
    ParseIntOfDigitsThen(NatToString(n), rest);
  }

  lemma NatToStringDigits(n: nat)
    ensures NatToString(n) != "" && AllDigits(NatToString(n))
    ensures DecimalValue(NatToString(n)) == n
  {
  }

  /** The tooltip of a product overdue by `n` days: `dia` for one day,
      `dias` for more. */
  lemma OverdueTooltipText(n: nat)
    requires n > 0
    ensures Tooltip(Overdue(n)) == OverduePrefix + (NatToString(n) + (if n == 1 then " dia" else " dias"))
  {
    assert " dia" + Plural(n) == (if n == 1 then " dia" else " dias");
  }

  /** An overdue tooltip names the number of days since the due date. */
  lemma OverdueTooltipStatesDays(diff: int)
    requires diff < 0
    ensures var prefix := "Produto vencido há ";
      StartsWith(Tooltip(Classify(diff)), prefix)
      && ParseInt(Tooltip(Classify(diff))[|prefix|..]) == Some(-diff)
    ensures Tooltip(Classify(diff))[|OverduePrefix|..] == NatToString(-diff) + (if diff == -1 then " dia" else " dias")
  {
    var n: nat := -diff;
    var rest := if n == 1 then " dia" else " dias";
    assert Classify(diff) == Overdue(n);
    OverdueTooltipText(n);
    var t := Tooltip(Overdue(n));
    assert t[|OverduePrefix|..] == NatToString(n) + rest;
    NatToStringDigits(n);
    ParseIntOfDigitsThen(NatToString(n), rest);
  }

  /** Moving today forward by one day moves every dated status one step
      towards VENCIDO: a product due tomorrow is due today a day later. */
  lemma OneDayLater(date: string, today: int)
    requires DiasParaVencimento(date, today) == DueSoon(1)
    ensures DiasParaVencimento(date, today + 1) == DueToday
  {
  }

  /** A due date before today, on the calendar, is exactly an overdue status. */
  lemma OverdueIffEarlierDate(y: int, m: int, d: int, ty: int, tm: int, td: int, date: string)
    requires IsCalendarDate(y, m, d) && IsCalendarDate(ty, tm, td)
    requires DueDay(date) == Some(MakeDay(y, m - 1, d))
    ensures DiasParaVencimento(date, MakeDay(ty, tm - 1, td)).Overdue?
        <==> Before(y, m, d, ty, tm, td)
  {
    CalendarOrder(y, m, d, ty, tm, td);
  }
}

=== FILE: export.dfy ===
/** The export dialog of the browser (`export-handler.js`): the filter built
    when the user confirms, the summary line of the current selection and the
    name of the downloaded file. The date in the name is given by the caller. */
module Export {
  import opened Js
  import opened Text

  /** The filter object sent with an export: its type and the optional lists. */
  datatype ExportFilter = ExportFilter(
    kind: string,
    motivos: Option<seq<string>>,
    status: Option<seq<string>>,
    usuarios: Option<seq<string>>)

  /** A reason checkbox of the dialog: its value, the text of its label (`caption`), and
      whether it is checked. */
  datatype Checkbox = Checkbox(value: string, caption: string, checked: bool)

  /** `s.toLowerCase().replace(/\s+/g, '_')`. */
  function Slug(s: string): (r: string)
    ensures forall i :: 0 <= i < |r| ==> !IsWhitespace(r[i]) && LowerChar(r[i]) == r[i]
  {
    var lower := Lower(s);
    var r := ReplaceWhitespaceRuns(lower, "_");
    assert forall c :: c in lower ==> LowerChar(c) == c;
    r
  }

  /** A slug is its own slug. */
  lemma SlugIdempotent(s: string)
    ensures Slug(Slug(s)) == Slug(s)
  {
    var r := Slug(s);
    assert Lower(r) == r;
  }

  /** The slug ignores ASCII case. */
  lemma SlugIgnoresCase(s: string)
    ensures Slug(Lower(s)) == Slug(s)
  {
    LowerIdempotent(s);
  }

  /** Each whitespace run of the name becomes exactly one '_'. */
  lemma SlugOfRun(a: string, w: string, b: string)
    requires forall i :: 0 <= i < |a| ==> !IsWhitespace(a[i])
    requires w != "" && IsBlank(w)
    requires b == "" || !IsWhitespace(b[0])
    ensures Slug(a + w + b) == Lower(a) + "_" + Slug(b)
  {
    assert Lower(a + w + b) == Lower(a) + Lower(w) + Lower(b);
    ReplaceRunOnce(Lower(a), Lower(w), Lower(b), "_");
  }

  /** The filter names exactly one entry of the list its type selects. */
  predicate SingleEntry(f: ExportFilter)
  {
    || (f.kind == "motivo" && f.motivos.Some? && |f.motivos.value| == 1)
    || (f.kind == "status" && f.status.Some? && |f.status.value| == 1)
    || (f.kind == "usuario" && f.usuarios.Some? && |f.usuarios.value| == 1)
  }

  /** The part of the file name between "produtos" and the date. */
  function FilenameSuffix(f: ExportFilter): (suffix: string)
    ensures suffix == "" <==> f.kind == "all"
    ensures suffix != "" ==> suffix[0] == '_'
    ensures f.kind != "all" && !SingleEntry(f) ==> suffix == "_filtrado"
    ensures f.kind == "motivo" && f.motivos.Some? && |f.motivos.value| == 1 ==>
      suffix == "_" + Slug(f.motivos.value[0])
    ensures f.kind == "usuario" && f.usuarios.Some? && |f.usuarios.value| == 1 ==>
      suffix == "_" + Slug(f.usuarios.value[0])
    ensures f.kind == "status" && f.status.Some? && |f.status.value| == 1 ==>
      suffix == "_" + f.status.value[0]
    ensures f.kind == "motivo" && (f.motivos.None? || |f.motivos.value| != 1) ==> suffix == "_filtrado"
  {
    if f.kind == "motivo" && f.motivos.Some? && |f.motivos.value| == 1 then
      "_" + Slug(f.motivos.value[0])
    else if f.kind == "status" && f.status.Some? && |f.status.value| == 1 then
      "_" + f.status.value[0]
    else if f.kind == "usuario" && f.usuarios.Some? && |f.usuarios.value| == 1 then
      "_" + Slug(f.usuarios.value[0])
    else if f.kind != "all" then "_filtrado"
    else ""
  }

  /** The download name: `'produtos' + suffix + '_' + date + '.xlsx'`. */
  function ExportFilename(f: ExportFilter, date: string): (name: string)
    ensures StartsWith(name, "produtos")
    ensures |name| >= |date| + 14 && name[|name| - |date| - 6..] == "_" + date + ".xlsx"
  {
    var head := "produtos" + FilenameSuffix(f);
    var tail := "_" + date + ".xlsx";
    var name := head + tail;
    assert name[|head|..] == tail;
    assert name[..8] == head[..8] == "produtos";
    name
  }

  /** The checked boxes, in checkbox order. */
  function Checked(boxes: seq<Checkbox>): (c: seq<Checkbox>)
    ensures forall b :: b in c <==> b in boxes && b.checked
    ensures c == [] <==> forall i :: 0 <= i < |boxes| ==> !boxes[i].checked
    decreases |boxes|
  {
    if boxes == [] then []
    else
      var init := Checked(boxes[..|boxes| - 1]);
      var last := boxes[|boxes| - 1];
      assert boxes == boxes[..|boxes| - 1] + [last];
      if last.checked then init + [last] else init
  }

  /** The values of the checked boxes, in checkbox order. */
  function CheckedValues(boxes: seq<Checkbox>): (values: seq<string>)
    ensures |values| <= |boxes|
    ensures values == [] <==> forall i :: 0 <= i < |boxes| ==> !boxes[i].checked
    ensures forall v :: v in values ==> exists i :: 0 <= i < |boxes| && boxes[i].checked && boxes[i].value == v
    decreases |boxes|
  {
    if boxes == [] then []
    else
      var init := CheckedValues(boxes[..|boxes| - 1]);
      var last := boxes[|boxes| - 1];
      assert forall i :: 0 <= i < |boxes| - 1 ==> boxes[..|boxes| - 1][i] == boxes[i];
      if last.checked then init + [last.value] else init
  }

  /** Value i sent with the filter is the value of the i-th checked box. */
  lemma {:induction false} ValuesOfChecked(boxes: seq<Checkbox>)
    ensures |CheckedValues(boxes)| == |Checked(boxes)|
    ensures forall i :: 0 <= i < |Checked(boxes)| ==> CheckedValues(boxes)[i] == Checked(boxes)[i].value
    decreases |boxes|
  {
    if boxes != [] {
      var init := boxes[..|boxes| - 1];
      var last := boxes[|boxes| - 1];
      ValuesOfChecked(init);
      if last.checked {
        assert Checked(boxes) == Checked(init) + [last];
        assert CheckedValues(boxes) == CheckedValues(init) + [last.value];
      } else {
        assert Checked(boxes) == Checked(init);
        assert CheckedValues(boxes) == CheckedValues(init);
      }
    }
  }

  /** Checking boxes further down adds values further right. */
  lemma {:induction false} CheckedValuesAppend(a: seq<Checkbox>, b: seq<Checkbox>)
    ensures CheckedValues(a + b) == CheckedValues(a) + CheckedValues(b)
    decreases |b|
  {
    if b == [] {
      assert a + b == a;
    } else {
      var b' := b[..|b| - 1];
      assert (a + b)[..|a + b| - 1] == a + b';
      assert (a + b)[|a + b| - 1] == b[|b| - 1];
      CheckedValuesAppend(a, b');
    }
  }

  /** `confirmBtn.onclick`: None when the type is 'motivo' and no reason is
      checked (an alert, no export); otherwise the filter sent, which carries
      the checked reasons only for the type 'motivo'. */
  function ConfirmExport(kind: string, boxes: seq<Checkbox>): (r: Option<ExportFilter>)
    ensures r.None? <==> kind == "motivo" && forall i :: 0 <= i < |boxes| ==> !boxes[i].checked
    ensures r.Some? ==> r.value.kind == kind && (r.value.motivos.Some? <==> kind == "motivo")
    ensures r.Some? ==> r.value.status.None? && r.value.usuarios.None?
    ensures r.Some? && kind == "motivo" ==> r.value.motivos == Some(CheckedValues(boxes))
  {
    if kind == "motivo" then
      var motivos := CheckedValues(boxes);
      if motivos == [] then None else Some(ExportFilter(kind, Some(motivos), None, None))
    else Some(ExportFilter(kind, None, None, None))
  }

  /** Confirming a single checked reason downloads a file named after it. */
  lemma SingleReasonFilename(boxes: seq<Checkbox>, v: string, date: string)
    requires CheckedValues(boxes) == [v]
    ensures ConfirmExport("motivo", boxes).Some?
    ensures ExportFilename(ConfirmExport("motivo", boxes).value, date)
         == "produtos" + "_" + Slug(v) + "_" + date + ".xlsx"
  {
    var f := ExportFilter("motivo", Some([v]), None, None);
    assert ConfirmExport("motivo", boxes) == Some(f);
    assert FilenameSuffix(f) == "_" + Slug(v);
  }

  /** The trimmed labels of the checked boxes, in checkbox order. */
  function CheckedLabels(boxes: seq<Checkbox>): (labels: seq<string>)
    ensures labels == [] <==> forall i :: 0 <= i < |boxes| ==> !boxes[i].checked
    decreases |boxes|
  {
    if boxes == [] then []
    else
      var init := CheckedLabels(boxes[..|boxes| - 1]);
      var last := boxes[|boxes| - 1];
      assert forall i :: 0 <= i < |boxes| - 1 ==> boxes[..|boxes| - 1][i] == boxes[i];
      if last.checked then init + [Trim(last.caption)] else init
  }

  /** Label i of the summary is the trimmed caption of the i-th checked box. */
  lemma {:induction false} LabelsOfChecked(boxes: seq<Checkbox>)
    ensures |CheckedLabels(boxes)| == |Checked(boxes)|
    ensures forall i :: 0 <= i < |Checked(boxes)| ==> CheckedLabels(boxes)[i] == Trim(Checked(boxes)[i].caption)
    decreases |boxes|
  {
    if boxes != [] {
      var init := boxes[..|boxes| - 1];
      var last := boxes[|boxes| - 1];
      LabelsOfChecked(init);
      if last.checked {
        var t := Trim(last.caption);
        assert Checked(boxes) == Checked(init) + [last];
        assert CheckedLabels(boxes) == CheckedLabels(init) + [t];
      } else {
        assert Checked(boxes) == Checked(init);
        assert CheckedLabels(boxes) == CheckedLabels(init);
      }
    }
  }

  const NoneSelected := "Nenhum motivo selecionado"
  const AllSelected := "Todos os produtos serão exportados"
  const ReasonsPrefix := "Motivos selecionados: "

  /** The summary text of `updateSelectionSummary`. */
  function SelectionSummary(kind: string, boxes: seq<Checkbox>): (summary: string)
    ensures kind != "all" && kind != "motivo" ==> summary == ""
    ensures kind == "all" ==> summary == AllSelected
    ensures kind == "motivo" && Checked(boxes) == [] ==> summary == NoneSelected
    ensures kind == "motivo" && Checked(boxes) != [] ==> summary == ReasonsPrefix + Join(CheckedLabels(boxes), ", ")
  {
    if kind == "all" then AllSelected
    else if kind == "motivo" then
      var labels := CheckedLabels(boxes);
      if labels == [] then NoneSelected else ReasonsPrefix + Join(labels, ", ")
    else ""
  }

  /** The summary warns that nothing is selected exactly when confirming would
      be refused. */
  lemma SummaryWarnsIffConfirmRefuses(kind: string, boxes: seq<Checkbox>)
    ensures SelectionSummary(kind, boxes) == NoneSelected <==> ConfirmExport(kind, boxes).None?
  {
    var summary := SelectionSummary(kind, boxes);
    if kind == "all" {
      assert summary[0] == 'T';
    } else if kind == "motivo" && CheckedLabels(boxes) != [] {
      assert summary[0] == 'M';
    }
  }
}

=== FILE: form.dfy ===
/** The product form (`handleFormSubmit` and `validateForm`): what is read from
    the fields, the validation messages, the currency check, the due-date rule
    and the timestamps of the record sent to the server. The current date and
    time text and the browser's floating-point currency formatting are given by
    the caller. */
module Form {
  import opened Js
  import opened Text
  import opened Catalog
  import opened Currency
  import opened DateFormat
  import opened Table

  /** The raw values of the form's inputs. */
  datatype FormInput = FormInput(
    codigo: string,
    produto: string,
    quantidade: string,
    motivo: string,
    dataVencimento: string,
    valor: string,
    usuario: string)

  /** `formData` as built by `handleFormSubmit`: trimmed texts, the quantity
      through `parseInt` (None is NaN), the value through `formatCurrency`. */
  datatype FormData = FormData(
    codigo: string,
    produto: string,
    quantidade: Option<int>,
    motivo: string,
    dataVencimento: string,
    valor: string,
    usuario: string)

  /** The validation failures, in the order `validateForm` checks them. */
  datatype FormError = CodigoMissing | ProdutoMissing | ValorMissing | QuantidadeNotPositive
    | MotivoMissing | DataMissing | UsuarioMissing

  /** The message shown for each failure. */
  function Message(e: FormError): string
  {
    match e
    case CodigoMissing => "Código do produto é obrigatório"
    case ProdutoMissing => "Nome do produto é obrigatório"
    case ValorMissing => "Valor do produto é obrigatório"
    case QuantidadeNotPositive => "Quantidade deve ser maior que zero"
    case MotivoMissing => "Motivo é obrigatório"
    case DataMissing => "Data de vencimento é obrigatória para produtos vencidos"
    case UsuarioMissing => "Usuário é obrigatório"
  }

  /** The text `formatCurrency` gives; `inexact` stands for what the browser's
      floating-point formatting prints for the stripped numeric text. */
  function CurrencyText(raw: string, inexact: string -> string): string
  {
    match FormatCurrency(raw)
    case Exact(t) => t
    case FloatDependent(numeric) => inexact(numeric)
  }

  function ReadForm(input: FormInput, inexact: string -> string): (f: FormData)
    ensures IsValidCurrency(input.valor) ==> f.valor == input.valor
  {
    assert IsValidCurrency(input.valor) ==> CurrencyText(input.valor, inexact) == input.valor by {
      if IsValidCurrency(input.valor) {
        FormatIdempotent(input.valor);
      }
    }
    FormData(
      Trim(input.codigo),
      Trim(input.produto),
      ParseInt(input.quantidade),
      input.motivo,
      input.dataVencimento,
      CurrencyText(input.valor, inexact),
      Trim(input.usuario))
  }

  /** Every requirement of the form at once. */
  predicate FormOk(f: FormData)
  {
    && !IsBlank(f.codigo) && !IsBlank(f.produto)
    && Trim(f.valor) != "" && Trim(f.valor) != "R$"
    && f.quantidade.Some? && f.quantidade.value > 0
    && !IsBlank(f.motivo)
    && !(f.motivo == MotivoVencido && IsBlank(f.dataVencimento))
    && !IsBlank(f.usuario)
  }

  /** The position of a failure in the order the checks run. */
  function Rank(e: FormError): nat
  {
    match e
    case CodigoMissing => 0
    case ProdutoMissing => 1
    case ValorMissing => 2
    case QuantidadeNotPositive => 3
    case MotivoMissing => 4
    case DataMissing => 5
    case UsuarioMissing => 6
  }

  /** The condition under which `validateForm` reports a failure. */
  predicate Fails(f: FormData, e: FormError)
  {
    match e
    case CodigoMissing => IsBlank(f.codigo)
    case ProdutoMissing => IsBlank(f.produto)
    case ValorMissing => Trim(f.valor) == "" || Trim(f.valor) == "R$"
    case QuantidadeNotPositive => f.quantidade.None? || f.quantidade.value <= 0
    case MotivoMissing => IsBlank(f.motivo)
    case DataMissing => f.motivo == MotivoVencido && IsBlank(f.dataVencimento)
    case UsuarioMissing => IsBlank(f.usuario)
  }

  /** Every failure, in checking order. */
  const Checks: seq<FormError> :=
    [CodigoMissing, ProdutoMissing, ValorMissing, QuantidadeNotPositive, MotivoMissing, DataMissing, UsuarioMissing]

  predicate RankOrdered(es: seq<FormError>)
  {
    forall i, j :: 0 <= i < j < |es| ==> Rank(es[i]) < Rank(es[j])
  }

  /** The failures among `checks` that hold for `f`, in the order given. */
  function Failures(f: FormData, checks: seq<FormError>): (errors: seq<FormError>)
    ensures forall e :: e in errors <==> e in checks && Fails(f, e)
    decreases |checks|
  {
    if checks == [] then []
    else
      var rest := Failures(f, checks[1..]);
      if Fails(f, checks[0]) then [checks[0]] + rest else rest
  }

  lemma {:induction false} FailuresKeepOrder(f: FormData, checks: seq<FormError>)
    requires RankOrdered(checks)
    ensures RankOrdered(Failures(f, checks))
    decreases |checks|
  {
    if checks != [] {
      assert RankOrdered(checks[1..]);
      FailuresKeepOrder(f, checks[1..]);
      var rest := Failures(f, checks[1..]);
      forall e | e in rest ensures Rank(checks[0]) < Rank(e) {
        var k :| 0 <= k < |checks[1..]| && checks[1..][k] == e;
        assert checks[k + 1] == e;
      }
    }
  }

  lemma NoFailureIffOk(f: FormData)
    ensures (forall e :: !Fails(f, e)) <==> FormOk(f)
  {
    if FormOk(f) {
      forall e ensures !Fails(f, e) {
        match e
        case CodigoMissing =>
        case ProdutoMissing =>
        case ValorMissing =>
        case QuantidadeNotPositive =>
        case MotivoMissing =>
        case DataMissing =>
        case UsuarioMissing =>
      }
    } else {
      assert Fails(f, CodigoMissing) || Fails(f, ProdutoMissing) || Fails(f, ValorMissing)
        || Fails(f, QuantidadeNotPositive) || Fails(f, MotivoMissing) || Fails(f, DataMissing)
        || Fails(f, UsuarioMissing);
    }
  }

  lemma AllChecks(e: FormError)
    ensures e in Checks
  {
    match e
    case CodigoMissing => assert Checks[0] == e;
    case ProdutoMissing => assert Checks[1] == e;
    case ValorMissing => assert Checks[2] == e;
    case QuantidadeNotPositive => assert Checks[3] == e;
    case MotivoMissing => assert Checks[4] == e;
    case DataMissing => assert Checks[5] == e;
    case UsuarioMissing => assert Checks[6] == e;
  }

  lemma ChecksOrdered()
    ensures RankOrdered(Checks)
  {
    forall i, j | 0 <= i < j < |Checks| ensures Rank(Checks[i]) < Rank(Checks[j]) {
      assert Rank(Checks[i]) == i && Rank(Checks[j]) == j;
    }
  }

  /** `validateForm(formData)`, the failures in place of their messages. */
  function ValidateForm(f: FormData): (errors: seq<FormError>)
    ensures forall e :: e in errors <==> Fails(f, e)
    ensures errors == [] <==> FormOk(f)
    ensures RankOrdered(errors)
  {
    var errors := Failures(f, Checks);
    forall e ensures e in Checks { AllChecks(e); }
    NoFailureIffOk(f);
    ChecksOrdered();
    FailuresKeepOrder(f, Checks);
    errors
  }

  /** Only the motivo VENCIDO ever asks for a due date. */
  lemma OnlyVencidoNeedsDate(f: FormData)
    requires f.motivo != MotivoVencido
    ensures DataMissing !in ValidateForm(f)
  {
  }

  /** The due date sent: the Brazilian spelling for VENCIDO, "" otherwise. */
  function SentDueDate(f: FormData): (date: string)
    ensures f.motivo != MotivoVencido ==> date == ""
  {
    if f.motivo == MotivoVencido && f.dataVencimento != "" then FormatDateToBrazilian(f.dataVencimento)
    else ""
  }

  /** The insertion stamp of the record: now for a new product, otherwise the
      text of cell `column` of the row being edited. */
  function InsertionStamp(editing: Option<Row>, now: string, column: nat): string
    requires column < 12
  {
    match editing
    case None => now
    case Some(row) => Cells(row)[column]
  }

  /** What submitting the form does: show validation errors, reject a badly
      formatted value, or send the record (as an edit when a row is being
      edited). */
  datatype Outcome = Rejected(errors: seq<FormError>) | BadCurrency | Send(product: Product, edit: bool)

  function Submit(input: FormInput, editing: Option<Row>, now: string, inexact: string -> string,
                  stampColumn: nat): (o: Outcome)
    requires stampColumn < 12
    ensures o.Rejected? <==> !FormOk(ReadForm(input, inexact))
    ensures o.Rejected? ==> o.errors != [] && forall e :: e in o.errors <==> Fails(ReadForm(input, inexact), e)
    ensures o.BadCurrency? <==>
      FormOk(ReadForm(input, inexact)) && !IsValidCurrency(ReadForm(input, inexact).valor)
    ensures o.Send? <==>
      FormOk(ReadForm(input, inexact)) && IsValidCurrency(ReadForm(input, inexact).valor)
    ensures o.Send? ==> IsValidCurrency(o.product.valor) && o.edit == editing.Some?
    ensures o.Send? ==> o.product.dataUltimaModificacao == now
    ensures o.Send? && input.motivo != MotivoVencido ==> o.product.dataVencimento == ""
    ensures o.Send? ==> o.product.dataHoraInsercao == InsertionStamp(editing, now, stampColumn)
    ensures o.Send? ==> o.product.dataVencimento == SentDueDate(ReadForm(input, inexact))
    ensures o.Send? ==> o.product.valor == ReadForm(input, inexact).valor
    ensures o.Send? ==>
      && o.product.codigo == Trim(input.codigo)
      && o.product.produto == Trim(input.produto)
      && o.product.usuario == Trim(input.usuario)
      && o.product.motivo == input.motivo
    ensures o.Send? ==> ParseInt(input.quantidade).Some? && ParseInt(o.product.quantidade) == ParseInt(input.quantidade)
  {
    var f := ReadForm(input, inexact);
    assert f.quantidade.Some? && f.quantidade.value >= 0 ==>
      ParseInt(NatToString(f.quantidade.value)) == f.quantidade by {
      if f.quantidade.Some? && f.quantidade.value >= 0 {
        ParseNatToString(f.quantidade.value);
      }
    }
    var errors := ValidateForm(f);
    if errors != [] then Rejected(errors)
    else if !IsValidCurrency(f.valor) then BadCurrency
    else
      Send(
        Product(f.codigo, f.produto, f.valor, NatToString(f.quantidade.value), f.motivo,
                SentDueDate(f), f.usuario, InsertionStamp(editing, now, stampColumn), now),
        editing.Some?)
  }

  /** `handleFormSubmit` as written: the original insertion stamp is read from
      `editingRow.children[8]`, the usuario column. */
  function SubmitFormAsWritten(input: FormInput, editing: Option<Row>, now: string,
                               inexact: string -> string): (o: Outcome)
    ensures o.Send? && editing.Some? ==> o.product.dataHoraInsercao == editing.value.usuario
  {
    assert editing.Some? ==> InsertionStamp(editing, now, ColUsuario) == editing.value.usuario;
    Submit(input, editing, now, inexact, ColUsuario)
  }

  /** `handleFormSubmit` reading the insertion stamp from `children[9]`. */
  function SubmitForm(input: FormInput, editing: Option<Row>, now: string,
                      inexact: string -> string): (o: Outcome)
    ensures o.Send? && editing.None? ==> o.product.dataHoraInsercao == now
    ensures o.Send? && editing.Some? ==> o.product.dataHoraInsercao == editing.value.dataHoraInsercao
  {
    assert editing.Some? ==> InsertionStamp(editing, now, ColDataHoraInsercao) == editing.value.dataHoraInsercao;
    Submit(input, editing, now, inexact, ColDataHoraInsercao)
  }

  /** Editing a row sends, as written, the user name as the insertion stamp:
      whenever the two differ the original stamp is lost. */
  lemma AsWrittenLosesInsertionStamp(input: FormInput, p: Product, number: nat, today: int,
                                     now: string, inexact: string -> string)
    requires SubmitFormAsWritten(input, Some(BuildRow(p, number, today)), now, inexact).Send?
    requires p.usuario != p.dataHoraInsercao
    ensures SubmitFormAsWritten(input, Some(BuildRow(p, number, today)), now, inexact).product.dataHoraInsercao
         != p.dataHoraInsercao
  {
  }

  /** With the insertion column, an edited product keeps its original stamp,
      also after earlier in-place updates of its row. */
  lemma EditKeepsInsertionStamp(input: FormInput, p: Product, number: nat, today: int,
                                updates: seq<Product>, now: string, inexact: string -> string)
    requires SubmitForm(input, Some(UpdateAll(BuildRow(p, number, today), updates, today, now)), now, inexact).Send?
    ensures SubmitForm(input, Some(UpdateAll(BuildRow(p, number, today), updates, today, now)), now, inexact)
      .product.dataHoraInsercao == p.dataHoraInsercao
  {
    UpdateAllKeepsStamp(BuildRow(p, number, today), updates, today, now);
  }

  /** A row after a series of in-place updates. */
  function UpdateAll(row: Row, updates: seq<Product>, today: int, now: string): Row
    decreases |updates|
  {
    if updates == [] then row else UpdateAll(UpdateRow(row, updates[0], today, now), updates[1..], today, now)
  }

  lemma {:induction false} UpdateAllKeepsStamp(row: Row, updates: seq<Product>, today: int, now: string)
    ensures UpdateAll(row, updates, today, now).dataHoraInsercao == row.dataHoraInsercao
    decreases |updates|
  {
    if updates != [] {
      UpdateAllKeepsStamp(UpdateRow(row, updates[0], today, now), updates[1..], today, now);
    }
  }

  /** A due date picked in the date input (YYYY-MM-DD) is sent in Brazilian
      form for a VENCIDO product. */
  lemma SubmitSendsBrazilianDate(input: FormInput, editing: Option<Row>, now: string,
                                 inexact: string -> string, d: Ymd)
    requires InRange(d) && input.motivo == MotivoVencido && input.dataVencimento == IsoText(d)
    requires SubmitForm(input, editing, now, inexact).Send?
    ensures SubmitForm(input, editing, now, inexact).product.dataVencimento == BrazilianText(d)
  {
    BrazilianOfIso(d);
  }

  /** A form whose fields pass validation and whose value is typed in
      currency format is sent, with the value exactly as typed. */
  lemma ValidFormIsSent(input: FormInput, editing: Option<Row>, now: string, inexact: string -> string)
    requires FormOk(ReadForm(input, inexact)) && IsValidCurrency(input.valor)
    ensures SubmitForm(input, editing, now, inexact).Send?
    ensures SubmitForm(input, editing, now, inexact).product.valor == input.valor
  {
  }

  /** A well-formed value typed in the form is sent exactly as typed. */
  lemma SubmitKeepsValidValue(input: FormInput, editing: Option<Row>, now: string,
                              inexact: string -> string)
    requires IsValidCurrency(input.valor) && SubmitForm(input, editing, now, inexact).Send?
    ensures SubmitForm(input, editing, now, inexact).product.valor == input.valor
  {
  }
}

=== FILE: html.dfy ===
/** HTML escaping of the product table (`escapeHtml`) and the entity decoding
    the browser applies when it parses a cell's markup into its text. */
module Html {
  import opened Js
  import opened Text

  /** The five characters `escapeHtml` replaces. */
  predicate IsSpecial(c: char)
  {
    c == '&' || c == '<' || c == '>' || c == '"' || c == '\''
  }

  /** The entity `escapeHtml` writes for a character. */
  function EscapeChar(c: char): (r: string)
    ensures r != ""
    ensures !IsSpecial(c) ==> r == [c]
    ensures IsSpecial(c) ==> r[0] == '&' && |r| >= 4
  {
    match c
    case '&' => "&amp;"
    case '<' => "&lt;"
    case '>' => "&gt;"
    case '"' => "&quot;"
    case '\'' => "&#039;"
    case _ => [c]
  }

  /** `text.replace(/[&<>"']/g, m => map[m])`. */
  function EscapeText(s: string): (r: string)
    ensures forall i :: 0 <= i < |r| ==> r[i] != '<' && r[i] != '>' && r[i] != '"' && r[i] != '\''
    ensures (forall i :: 0 <= i < |s| ==> !IsSpecial(s[i])) ==> r == s
    ensures |r| >= |s|
  {
    if s == "" then ""
    else
      var head := EscapeChar(s[0]);
      assert forall i :: 0 <= i < |head| ==> head[i] != '<' && head[i] != '>' && head[i] != '"' && head[i] != '\'';
      head + EscapeText(s[1..])
  }

  /** `escapeHtml(text)`: strings are escaped, any other value is returned as it is. */
  function EscapeHtml(v: JsValue): (r: JsValue)
    ensures !v.Str? ==> r == v
    ensures v.Str? ==> r.Str? && r.s == EscapeText(v.s)
  {
    match v
    case Str(s) => Str(EscapeText(s))
    case _ => v
  }

  /** The text of markup without tags: the five entities written by
      `escapeHtml` decoded, every other character kept. */
  function DecodeEntities(s: string): string
    decreases |s|
  {
    if s == "" then ""
    else if StartsWith(s, "&amp;") then "&" + DecodeEntities(s[5..])
    else if StartsWith(s, "&lt;") then "<" + DecodeEntities(s[4..])
    else if StartsWith(s, "&gt;") then ">" + DecodeEntities(s[4..])
    else if StartsWith(s, "&quot;") then "\"" + DecodeEntities(s[6..])
    else if StartsWith(s, "&#039;") then "'" + DecodeEntities(s[6..])
    else [s[0]] + DecodeEntities(s[1..])
  }

  /** Decoding an escaped character's entity gives the character back. */
  lemma DecodeEscapedChar(c: char, rest: string)
    ensures DecodeEntities(EscapeChar(c) + rest) == [c] + DecodeEntities(rest)
  {
    var e := EscapeChar(c);
    var t := e + rest;
    assert t[..|e|] == e && t[|e|..] == rest;
    if !IsSpecial(c) {
      assert t[0] == c && t[1..] == rest;
      assert !StartsWith(t, "&amp;") && !StartsWith(t, "&lt;") && !StartsWith(t, "&gt;");
      assert !StartsWith(t, "&quot;") && !StartsWith(t, "&#039;");
    } else if c == '&' {
      assert StartsWith(t, "&amp;");
    } else if c == '<' {
      assert t[1] == 'l';
      assert !StartsWith(t, "&amp;") && StartsWith(t, "&lt;");
    } else if c == '>' {
      assert t[1] == 'g';
      assert !StartsWith(t, "&amp;") && !StartsWith(t, "&lt;") && StartsWith(t, "&gt;");
    } else if c == '"' {
      assert t[1] == 'q';
      assert !StartsWith(t, "&amp;") && !StartsWith(t, "&lt;") && !StartsWith(t, "&gt;");
      assert StartsWith(t, "&quot;");
    } else {
      assert t[1] == '#';
      assert !StartsWith(t, "&amp;") && !StartsWith(t, "&lt;") && !StartsWith(t, "&gt;");
      assert !StartsWith(t, "&quot;") && StartsWith(t, "&#039;");
    }
  }

  /** The browser shows exactly the text that was escaped. */
  lemma {:induction false} DecodeEscape(s: string)
    ensures DecodeEntities(EscapeText(s)) == s
    decreases |s|
  {
    if s != "" {
      DecodeEscapedChar(s[0], EscapeText(s[1..]));
      DecodeEscape(s[1..]);
      assert [s[0]] + s[1..] == s;
    }
  }

  /** Escaping twice differs from escaping once as soon as there is a special
      character: `escapeHtml` is not idempotent, so it must be applied once. */
  lemma EscapeTwiceAmpersand()
    ensures EscapeText(EscapeText("&")) == "&amp;amp;"
  {
    assert EscapeText("&") == "&amp;" by {
      assert EscapeText("&"[1..]) == "";
    }
    assert EscapeText("&amp;") == "&amp;" + EscapeText("amp;") by {
      assert "&amp;"[1..] == "amp;";
    }
    assert EscapeText("amp;") == "amp;" by {
      assert forall i :: 0 <= i < |"amp;"| ==> !IsSpecial("amp;"[i]);
    }
  }
}

=== FILE: js.dfy ===
/** JavaScript primitives the application relies on: values as they arrive in a
    JSON request body, truthiness, whitespace, `trim` and `parseInt`. */
module Js {

  /** The conventional Some/None datatype; `None` also stands for JavaScript's NaN
      where a number is parsed. */
  datatype Option<+T> = None | Some(value: T)

  /** A JSON-compatible JavaScript value. Numbers are integers here. */
  datatype JsValue = Undefined | Null | Bool(b: bool) | Num(n: int) | NaN | Str(s: string)

  /** JavaScript's `!!v`. */
  predicate Truthy(v: JsValue)
  {
    match v
    case Undefined => false
    case Null => false
    case Bool(b) => b
    case Num(n) => n != 0
    case NaN => false
    case Str(s) => s != ""
  }

  /** ECMAScript WhiteSpace and LineTerminator code points (what `trim`, `\s` and
      `parseInt` skip). */
  predicate IsWhitespace(c: char)
  {
    || c == '\t' || c == '\n' || c == '\U{000B}' || c == '\U{000C}' || c == '\r' || c == ' '
    || c == '\U{00A0}' || c == '\U{1680}' || ('\U{2000}' <= c <= '\U{200A}')
    || c == '\U{2028}' || c == '\U{2029}' || c == '\U{202F}' || c == '\U{205F}'
    || c == '\U{3000}' || c == '\U{FEFF}'
  }

  predicate IsDigit(c: char)
  {
    '0' <= c <= '9'
  }

  predicate IsHexDigit(c: char)
  {
    IsDigit(c) || 'a' <= c <= 'f' || 'A' <= c <= 'F'
  }

  predicate AllDigits(s: string)
  {
    forall i :: 0 <= i < |s| ==> IsDigit(s[i])
  }

  predicate IsBlank(s: string)
  {
    forall i :: 0 <= i < |s| ==> IsWhitespace(s[i])
  }

  /** `String.prototype.trimStart`. */
  function TrimStart(s: string): (r: string)
    ensures |r| <= |s| && r == s[|s| - |r|..]
    ensures r == [] || !IsWhitespace(r[0])
    ensures forall i :: 0 <= i < |s| - |r| ==> IsWhitespace(s[i])
  {
    if |s| > 0 && IsWhitespace(s[0]) then
      var r := TrimStart(s[1..]);
      assert forall i :: 1 <= i < |s| ==> s[i] == s[1..][i - 1];
      r
    else s
  }

  /** The length of the whitespace run at the start of `s`. */
  function LeadingBlanks(s: string): (n: nat)
    ensures n <= |s|
    ensures forall i :: 0 <= i < n ==> IsWhitespace(s[i])
    ensures n == |s| || !IsWhitespace(s[n])
  {
    if |s| > 0 && IsWhitespace(s[0]) then
      var n := 1 + LeadingBlanks(s[1..]);
      assert forall i :: 1 <= i < |s| ==> s[i] == s[1..][i - 1];
      n
    else 0
  }

  /** The length of the whitespace run at the end of `s`. */
  function TrailingBlanks(s: string): (n: nat)
    ensures n <= |s|
    ensures forall i :: |s| - n <= i < |s| ==> IsWhitespace(s[i])
    ensures n == |s| || !IsWhitespace(s[|s| - n - 1])
  {
    if |s| > 0 && IsWhitespace(s[|s| - 1]) then
      var n := 1 + TrailingBlanks(s[..|s| - 1]);
      assert forall i :: 0 <= i < |s| - 1 ==> s[i] == s[..|s| - 1][i];
      n
    else 0
  }

  /** `String.prototype.trim`: the slice of `s` between its leading and its
      trailing whitespace runs; blank strings, and only those, trim to "". */
  function Trim(s: string): (r: string)
    ensures LeadingBlanks(s) + |r| <= |s|
    ensures r == s[LeadingBlanks(s)..LeadingBlanks(s) + |r|]
    ensures forall i :: LeadingBlanks(s) + |r| <= i < |s| ==> IsWhitespace(s[i])
    ensures r == "" <==> IsBlank(s)
    ensures IsBlank(s) || (!IsWhitespace(r[0]) && !IsWhitespace(r[|r| - 1]))
  {
    var k := LeadingBlanks(s);
    if k == |s| then ""
    else
      var e := |s| - TrailingBlanks(s);
      assert !IsWhitespace(s[k]);
      s[k..e]
  }

  /** A text that neither starts nor ends with whitespace is its own trim. */
  lemma TrimUnpadded(s: string)
    requires |s| > 0 && !IsWhitespace(s[0]) && !IsWhitespace(s[|s| - 1])
    ensures Trim(s) == s
  {
  }

  /** The value of an ASCII decimal digit. */
  function DigitValue(c: char): (v: nat)
    requires IsDigit(c)
    ensures v < 10
  {
    (c - '0') as nat
  }

  function HexDigitValue(c: char): (v: nat)
    requires IsHexDigit(c)
    ensures v < 16
  {
    if IsDigit(c) then DigitValue(c)
    else if 'a' <= c <= 'f' then (c - 'a') as nat + 10
    else (c - 'A') as nat + 10
  }

  /** The decimal number a digit string spells. */
  function DecimalValue(s: string): nat
    requires AllDigits(s)
  {
    if |s| == 0 then 0 else 10 * DecimalValue(s[..|s| - 1]) + DigitValue(s[|s| - 1])
  }

  function HexValue(s: string): nat
    requires forall i :: 0 <= i < |s| ==> IsHexDigit(s[i])
  {
    if |s| == 0 then 0 else 16 * HexValue(s[..|s| - 1]) + HexDigitValue(s[|s| - 1])
  }

  /** The longest prefix of `s` made of decimal digits. */
  function DigitPrefix(s: string): (r: string)
    ensures |r| <= |s| && r == s[..|r|]
    ensures AllDigits(r)
    ensures |r| == |s| || !IsDigit(s[|r|])
  {
    if |s| > 0 && IsDigit(s[0]) then [s[0]] + DigitPrefix(s[1..]) else ""
  }

  function HexPrefix(s: string): (r: string)
    ensures |r| <= |s| && r == s[..|r|]
    ensures forall i :: 0 <= i < |r| ==> IsHexDigit(r[i])
    ensures |r| == |s| || !IsHexDigit(s[|r|])
  {
    if |s| > 0 && IsHexDigit(s[0]) then [s[0]] + HexPrefix(s[1..]) else ""
  }

  /** `parseInt(s)` with no radix: leading whitespace is skipped, then an optional
      sign, then a `0x`/`0X` prefix selects hexadecimal; the longest digit prefix is
      read, and None (NaN) results when there is none. */
  function ParseInt(s: string): Option<int>
  {
    var t := TrimStart(s);
    var negative := |t| > 0 && t[0] == '-';
    var u := if |t| > 0 && (t[0] == '-' || t[0] == '+') then t[1..] else t;
    if |u| >= 2 && u[0] == '0' && (u[1] == 'x' || u[1] == 'X') then
      var h := HexPrefix(u[2..]);
      var v: int := HexValue(h);
      if h == "" then None else Some(if negative then -v else v)
    else
      var d := DigitPrefix(u);
      var v: int := DecimalValue(d);
      if d == "" then None else Some(if negative then -v else v)
  }

  /** `ToNumber` of a string, restricted to optionally signed decimal integers:
      blank strings read as 0, anything else outside that grammar as NaN. */
  function StringToNumber(s: string): Option<int>
  {
    var t := Trim(s);
    if t == "" then Some(0)
    else
      var negative := t[0] == '-';
      var u := if t[0] == '-' || t[0] == '+' then t[1..] else t;
      if u != "" && AllDigits(u) then
        var v: int := DecimalValue(u);
        Some(if negative then -v else v)
      else None
  }

  /** JavaScript's `ToNumber`, None being NaN. */
  function ToNumber(v: JsValue): Option<int>
  {
    match v
    case Undefined => None
    case Null => Some(0)
    case Bool(b) => Some(if b then 1 else 0)
    case Num(n) => Some(n)
    case NaN => None
    case Str(s) => StringToNumber(s)
  }

  lemma {:induction false} DigitPrefixOfDigits(s: string, rest: string)
    requires AllDigits(s)
    requires rest == "" || !IsDigit(rest[0])
    ensures DigitPrefix(s + rest) == s
    decreases |s|
  {
    if |s| > 0 {
      assert (s + rest)[1..] == s[1..] + rest;
      DigitPrefixOfDigits(s[1..], rest);
      assert [s[0]] + s[1..] == s;
    } else {
      assert s + rest == rest;
    }
  }

  /** Text starting with a decimal digit and no "0x" prefix is read by
      `parseInt` as its longest digit prefix. */
  lemma ParseIntUnsigned(t: string)
    requires t != "" && IsDigit(t[0])
    requires !(|t| >= 2 && t[0] == '0' && (t[1] == 'x' || t[1] == 'X'))
    ensures ParseInt(t) == Some(DecimalValue(DigitPrefix(t)))
  {
    DigitStartNotTrimmed(t);
    assert !(t[0] == '-' || t[0] == '+');
  }

  lemma DigitStartNotTrimmed(t: string)
    requires t != "" && IsDigit(t[0])
    ensures TrimStart(t) == t
  {
  }

  /** `parseInt` reads a run of decimal digits as the number it spells, whatever
      non-digit text follows (other than an `x` that would make "0x" a prefix). */
  lemma ParseIntOfDigitsThen(s: string, rest: string)
    requires s != "" && AllDigits(s)
    requires rest == "" || (!IsDigit(rest[0]) && rest[0] != 'x' && rest[0] != 'X')
    ensures ParseInt(s + rest) == Some(DecimalValue(s))
  {
    var t := s + rest;
    assert t[0] == s[0] && IsDigit(s[0]);
    assert |t| >= 2 ==> t[1] != 'x' && t[1] != 'X' by {
      if |t| >= 2 {
        if |s| >= 2 {
          assert t[1] == s[1] && IsDigit(s[1]);
        } else {
          assert t[1] == rest[0];
        }
      }
    }
    ParseIntUnsigned(t);
    DigitPrefixOfDigits(s, rest);
  }

  /** A string of decimal digits is read by `parseInt` as the number it spells. */
  lemma ParseIntOfDigits(s: string)
    requires s != "" && AllDigits(s)
    ensures ParseInt(s) == Some(DecimalValue(s))
  {
    ParseIntOfDigitsThen(s, "");
    assert s + "" == s;
  }
}

=== FILE: store.dfy ===
/** The server's in-memory product list (`server.js`): request validation,
    the effect of each route on the list, and the rows and fills of the
    spreadsheet export. Clock readings and ids are given by the caller. */
module Store {
  import opened Js
  import opened Text
  import Export

  /** A stored product: the JSON object as the server keeps it. */
  type Record = map<string, JsValue>

  /** `record[key]`, `undefined` when the key is absent. */
  function Field(r: Record, key: string): JsValue
  {
    if key in r then r[key] else Undefined
  }

  /** The status code and message of a JSON reply. */
  datatype Reply = Reply(status: nat, message: string)

  /** The product list after a request, and the reply sent. */
  datatype Outcome = Outcome(store: seq<Record>, reply: Reply)

  const MissingFields := "Todos os campos obrigatórios devem ser preenchidos"
  const BadQuantity := "Quantidade deve ser um número maior que zero"
  const Added := "Produto adicionado com sucesso!"
  const Updated := "Produto atualizado com sucesso!"
  const Removed := "Produto removido com sucesso!"
  const NotFound := "Produto não encontrado"
  const WrongPassword := "Senha incorreta"
  const ResetDone := "Lista de produtos resetada com sucesso"
  const ResetPassword := "1234"

  /** The body fields every add and update must carry. */
  const RequiredFields: seq<string> := ["codigo", "produto", "quantidade", "motivo", "usuario", "valor"]

  /** The fields the server writes itself when a product is added. */
  const Generated: set<string> := {"id", "createdAt", "updatedAt"}

  /** `isNaN(quantidade) || quantidade <= 0` is false. */
  predicate PositiveQuantity(body: Record)
  {
    var q := ToNumber(Field(body, "quantidade"));
    q.Some? && q.value > 0
  }

  /** `validateProduct`: None lets the request through, otherwise the 400
      reply it sends. */
  function ValidateProduct(body: Record): (r: Option<Reply>)
    ensures r.None? <==>
      (forall i :: 0 <= i < |RequiredFields| ==> Truthy(Field(body, RequiredFields[i])))
      && PositiveQuantity(body)
    ensures r.Some? ==> r.value.status == 400
    ensures r == Some(Reply(400, MissingFields)) <==>
      exists i :: 0 <= i < |RequiredFields| && !Truthy(Field(body, RequiredFields[i]))
  {
    assert RequiredFields[0] == "codigo" && RequiredFields[1] == "produto";
    assert RequiredFields[2] == "quantidade" && RequiredFields[3] == "motivo";
    assert RequiredFields[4] == "usuario" && RequiredFields[5] == "valor";
    if !Truthy(Field(body, "codigo")) || !Truthy(Field(body, "produto"))
       || !Truthy(Field(body, "quantidade")) || !Truthy(Field(body, "motivo"))
       || !Truthy(Field(body, "usuario")) || !Truthy(Field(body, "valor"))
    then
      Some(Reply(400, MissingFields))
    else
      var q := ToNumber(Field(body, "quantidade"));
      if q.None? || q.value <= 0 then Some(Reply(400, BadQuantity)) else None
  }

  /** `/addProduct`: the body plus the id and the two time stamps, appended. */
  function AddProduct(store: seq<Record>, body: Record, id: int, now: string): (r: Outcome)
    ensures ValidateProduct(body).Some? ==> r == Outcome(store, ValidateProduct(body).value)
    ensures ValidateProduct(body).None? ==>
      && r.reply == Reply(200, Added)
      && |r.store| == |store| + 1
      && r.store == store + [r.store[|store|]]
      && r.store[|store|].Keys == body.Keys + Generated
      && Field(r.store[|store|], "id") == Num(id)
      && Field(r.store[|store|], "createdAt") == Str(now)
      && Field(r.store[|store|], "updatedAt") == Str(now)
      && forall k :: k in body && k !in Generated ==> r.store[|store|][k] == body[k]
  {
    match ValidateProduct(body)
    case Some(rejection) => Outcome(store, rejection)
    case None =>
      var product := body + map["id" := Num(id), "createdAt" := Str(now), "updatedAt" := Str(now)];
      Outcome(store + [product], Reply(200, Added))
  }

  /** `p.id === productId`, where `productId` is `parseInt` of the path. */
  predicate HasId(r: Record, id: Option<int>)
  {
    id.Some? && Field(r, "id") == Num(id.value)
  }

  /** `findIndex`: the first record carrying the id. */
  function FirstMatch(store: seq<Record>, id: Option<int>): (i: Option<nat>)
    ensures i.None? <==> forall j :: 0 <= j < |store| ==> !HasId(store[j], id)
    ensures i.Some? ==> i.value < |store| && HasId(store[i.value], id)
    ensures i.Some? ==> forall j :: 0 <= j < i.value ==> !HasId(store[j], id)
  {
    if store == [] then None
    else if HasId(store[0], id) then Some(0)
    else
      var rest := FirstMatch(store[1..], id);
      assert forall j :: 1 <= j < |store| ==> store[j] == store[1..][j - 1];
      if rest.None? then None else Some(rest.value + 1)
  }

  /** `{...old, ...body, updatedAt: now}`: the body's fields over the old
      ones, and a new modification stamp. */
  function Merge(previous: Record, body: Record, now: string): (merged: Record)
    ensures merged.Keys == previous.Keys + body.Keys + {"updatedAt"}
    ensures forall k :: k in previous && k !in body && k != "updatedAt" ==> merged[k] == previous[k]
    ensures forall k :: k in body && k != "updatedAt" ==> merged[k] == body[k]
    ensures Field(merged, "updatedAt") == Str(now)
  {
    previous + body + map["updatedAt" := Str(now)]
  }

  /** `next` is `store` with at most the entry at `i` replaced. */
  predicate OthersUnchanged(store: seq<Record>, next: seq<Record>, i: nat)
  {
    |next| == |store| && forall j :: 0 <= j < |store| && j != i ==> next[j] == store[j]
  }

  /** `/updateProduct/:id`: validation first, then 404 for an unknown id,
      otherwise the first record with the id is merged with the body. */
  function UpdateProduct(store: seq<Record>, idText: string, body: Record, now: string): (r: Outcome)
    ensures ValidateProduct(body).Some? ==> r == Outcome(store, ValidateProduct(body).value)
    ensures r.reply.status == 404 <==>
      ValidateProduct(body).None? && forall j :: 0 <= j < |store| ==> !HasId(store[j], ParseInt(idText))
    ensures r.reply.status == 404 ==> r == Outcome(store, Reply(404, NotFound))
    ensures |r.store| == |store|
    ensures r.reply.status == 200 ==>
      && FirstMatch(store, ParseInt(idText)).Some?
      && r.reply.message == Updated
      && OthersUnchanged(store, r.store, FirstMatch(store, ParseInt(idText)).value)
      && r.store[FirstMatch(store, ParseInt(idText)).value]
         == Merge(store[FirstMatch(store, ParseInt(idText)).value], body, now)
    ensures ValidateProduct(body).None? && FirstMatch(store, ParseInt(idText)).Some? ==>
      r.reply == Reply(200, Updated)
  {
    match ValidateProduct(body)
    case Some(rejection) => Outcome(store, rejection)
    case None =>
      match FirstMatch(store, ParseInt(idText))
      case None => Outcome(store, Reply(404, NotFound))
      case Some(i) => Outcome(store[i := Merge(store[i], body, now)], Reply(200, Updated))
  }

  /** `store.splice(i, 1)`: the list without its entry at `i`. */
  function Without(store: seq<Record>, i: nat): (rest: seq<Record>)
    requires i < |store|
    ensures |rest| == |store| - 1
    ensures forall j :: 0 <= j < i ==> rest[j] == store[j]
    ensures forall j :: i <= j < |rest| ==> rest[j] == store[j + 1]
  {
    store[..i] + store[i + 1..]
  }

  /** `/deleteProduct/:id`: 404 for an unknown id, otherwise the first record
      with the id is spliced out. */
  function DeleteProduct(store: seq<Record>, idText: string): (r: Outcome)
    ensures r.reply.status == 404 <==> forall j :: 0 <= j < |store| ==> !HasId(store[j], ParseInt(idText))
    ensures r.reply.status == 404 ==> r == Outcome(store, Reply(404, NotFound))
    ensures r.reply.status != 404 ==> r.reply == Reply(200, Removed) && |r.store| == |store| - 1
    ensures r.reply.status != 404 ==>
      exists i :: 0 <= i < |store| && HasId(store[i], ParseInt(idText)) && r.store == store[..i] + store[i + 1..]
    ensures FirstMatch(store, ParseInt(idText)).None? ==> r == Outcome(store, Reply(404, NotFound))
    ensures FirstMatch(store, ParseInt(idText)).Some? ==>
      r == Outcome(Without(store, FirstMatch(store, ParseInt(idText)).value), Reply(200, Removed))
  {
    match FirstMatch(store, ParseInt(idText))
    case None => Outcome(store, Reply(404, NotFound))
    case Some(i) => Outcome(Without(store, i), Reply(200, Removed))
  }

  /** The number of records carrying the id. */
  function CountWithId(store: seq<Record>, id: Option<int>): (n: nat)
    ensures n <= |store|
    ensures n == 0 <==> forall j :: 0 <= j < |store| ==> !HasId(store[j], id)
  {
    if store == [] then 0
    else
      assert forall j :: 1 <= j < |store| ==> store[j] == store[1..][j - 1];
      (if HasId(store[0], id) then 1 else 0) + CountWithId(store[1..], id)
  }

  lemma {:induction false} CountWithIdAppend(a: seq<Record>, b: seq<Record>, id: Option<int>)
    ensures CountWithId(a + b, id) == CountWithId(a, id) + CountWithId(b, id)
  {
    if a == [] {
      assert a + b == b;
    } else {
      assert (a + b)[1..] == a[1..] + b;
      CountWithIdAppend(a[1..], b, id);
    }
  }

  /** Removing an entry removes its id from the count and nothing else. */
  lemma CountWithout(store: seq<Record>, i: nat, id: Option<int>)
    requires i < |store|
    ensures CountWithId(Without(store, i), id) + (if HasId(store[i], id) then 1 else 0) == CountWithId(store, id)
  {
    var before, after := store[..i], store[i + 1..];
    assert store == before + [store[i]] + after;
    CountWithIdAppend(before + [store[i]], after, id);
    CountWithIdAppend(before, [store[i]], id);
    CountWithIdAppend(before, after, id);
  }

  /** Removing an entry keeps every other entry. */
  lemma MultisetWithout(store: seq<Record>, i: nat)
    requires i < |store|
    ensures multiset(Without(store, i)) + multiset{store[i]} == multiset(store)
  {
    var before, after := store[..i], store[i + 1..];
    assert store == before + ([store[i]] + after);
    assert multiset(store) == multiset(before) + multiset([store[i]] + after);
  }

  /** A delete answers 404 exactly when no record carries the id. */
  lemma DeleteNotFound(store: seq<Record>, idText: string)
    ensures DeleteProduct(store, idText).reply.status == 404 <==>
      forall j :: 0 <= j < |store| ==> !HasId(store[j], ParseInt(idText))
    ensures DeleteProduct(store, idText).reply.status == 404 ==> DeleteProduct(store, idText).store == store
  {
  }

  /** A successful delete removes exactly one record with the id and keeps
      every other record. */
  lemma DeleteRemovesOne(store: seq<Record>, idText: string)
    requires DeleteProduct(store, idText).reply.status == 200
    ensures CountWithId(DeleteProduct(store, idText).store, ParseInt(idText)) == CountWithId(store, ParseInt(idText)) - 1
    ensures multiset(DeleteProduct(store, idText).store) + multiset{store[FirstMatch(store, ParseInt(idText)).value]}
         == multiset(store)
  {
    var i := FirstMatch(store, ParseInt(idText)).value;
    CountWithout(store, i, ParseInt(idText));
    MultisetWithout(store, i);
  }

  /** A product added under an id no other record has is the first match
      for that id. */
  lemma FreshIdFoundLast(store: seq<Record>, body: Record, id: nat, now: string)
    requires ValidateProduct(body).None?
    requires forall j :: 0 <= j < |store| ==> Field(store[j], "id") != Num(id)
    ensures FirstMatch(AddProduct(store, body, id, now).store, Some(id)) == Some(|store|)
  {
    var added := AddProduct(store, body, id, now).store;
    assert forall j :: 0 <= j < |store| ==> added[j] == store[j];
  }

  /** Adding a product under a fresh id and then deleting that id restores
      the list. */
  lemma AddThenDelete(store: seq<Record>, body: Record, id: nat, now: string)
    requires ValidateProduct(body).None?
    requires forall j :: 0 <= j < |store| ==> Field(store[j], "id") != Num(id)
    ensures DeleteProduct(AddProduct(store, body, id, now).store, NatToString(id)) ==
      Outcome(store, Reply(200, Removed))
  {
    ParseNatToString(id);
    FreshIdFoundLast(store, body, id, now);
    var added := AddProduct(store, body, id, now).store;
    assert Without(added, |store|) == store;
  }

  /** The first match is the record carrying the id with none before it. */
  lemma FirstMatchAt(store: seq<Record>, id: Option<int>, i: nat)
    requires i < |store| && HasId(store[i], id)
    requires forall j :: 0 <= j < i ==> !HasId(store[j], id)
    ensures FirstMatch(store, id) == Some(i)
  {
    var k := FirstMatch(store, id);
    assert k.Some?;
    assert !(k.value < i);
  }

  /** Merging the same body twice with the same stamp is merging it once. */
  lemma MergeTwice(previous: Record, body: Record, now: string)
    ensures Merge(Merge(previous, body, now), body, now) == Merge(previous, body, now)
  {
    var once := Merge(previous, body, now);
    var twice := Merge(once, body, now);
    assert twice.Keys == once.Keys;
    forall k | k in once ensures twice[k] == once[k] {
      if k == "updatedAt" {
      } else if k in body {
      } else {
        assert k in previous;
      }
    }
  }

  /** Repeating an update whose body does not carry an id changes nothing
      more: the record keeps its id, so the same record is found and merged
      again to the same result. */
  lemma UpdateIdempotent(store: seq<Record>, idText: string, body: Record, now: string)
    requires "id" !in body
    ensures UpdateProduct(UpdateProduct(store, idText, body, now).store, idText, body, now)
         == UpdateProduct(store, idText, body, now)
  {
    var id := ParseInt(idText);
    var once := UpdateProduct(store, idText, body, now);
    if ValidateProduct(body).None? && FirstMatch(store, id).Some? {
      var i := FirstMatch(store, id).value;
      assert Field(once.store[i], "id") == Field(store[i], "id");
      FirstMatchAt(once.store, id, i);
      MergeTwice(store[i], body, now);
      assert once.store[i := Merge(once.store[i], body, now)] == once.store;
    }
  }

  /** Updating a freshly added product changes only that last record, which
      becomes the merge of the added record with the body. */
  lemma AddThenUpdate(store: seq<Record>, body: Record, id: nat, now: string, change: Record, later: string)
    requires ValidateProduct(body).None? && ValidateProduct(change).None?
    requires forall j :: 0 <= j < |store| ==> Field(store[j], "id") != Num(id)
    ensures var added := AddProduct(store, body, id, now).store;
      UpdateProduct(added, NatToString(id), change, later)
      == Outcome(store + [Merge(added[|store|], change, later)], Reply(200, Updated))
  {
    var added := AddProduct(store, body, id, now).store;
    var merged := Merge(added[|store|], change, later);
    ParseNatToString(id);
    FreshIdFoundLast(store, body, id, now);
    assert FirstMatch(added, ParseInt(NatToString(id))) == Some(|store|);
    UpdateAt(added, NatToString(id), change, later, |store|);
    ReplaceLast(store, added[|store|], merged);
  }

  lemma ReplaceLast(store: seq<Record>, last: Record, next: Record)
    ensures (store + [last])[|store| := next] == store + [next]
  {
  }

  /** A valid update of an id first found at `i` merges the record at `i`. */
  lemma UpdateAt(store: seq<Record>, idText: string, body: Record, now: string, i: nat)
    requires ValidateProduct(body).None? && FirstMatch(store, ParseInt(idText)) == Some(i)
    ensures i < |store|
    ensures UpdateProduct(store, idText, body, now) == Outcome(store[i := Merge(store[i], body, now)], Reply(200, Updated))
  {
  }

  /** `/resetProducts`: 401 unless the password is the string '1234'. */
  function ResetProducts(store: seq<Record>, password: JsValue): (r: Outcome)
    ensures r.reply.status == 401 <==> password != Str(ResetPassword)
    ensures r.reply.status == 401 ==> r.store == store
    ensures r.store == [] <==> password == Str(ResetPassword) || store == []
    ensures password != Str(ResetPassword) ==> r == Outcome(store, Reply(401, WrongPassword))
    ensures password == Str(ResetPassword) ==> r == Outcome([], Reply(200, ResetDone))
  {
    if password != Str(ResetPassword) then Outcome(store, Reply(401, WrongPassword))
    else Outcome([], Reply(200, ResetDone))
  }

  /** After a reset the list holds only what is added later: a valid add
      gives a list of exactly that one record. */
  lemma ResetThenAdd(store: seq<Record>, body: Record, id: int, now: string)
    requires ValidateProduct(body).None?
    ensures var added := AddProduct(ResetProducts(store, Str(ResetPassword)).store, body, id, now);
      |added.store| == 1 && added.reply == Reply(200, Added)
      && Field(added.store[0], "id") == Num(id)
  {
  }

  /** Resetting twice with the same password leaves the list the first
      reset left. */
  lemma ResetIdempotent(store: seq<Record>, password: JsValue)
    ensures ResetProducts(ResetProducts(store, password).store, password).store == ResetProducts(store, password).store
  {
  }

  /** A spreadsheet row of `/exportToExcel`, by column key. */
  datatype ExportRow = ExportRow(
    number: nat,
    codigo: JsValue,
    produto: JsValue,
    valor: JsValue,
    quantidade: JsValue,
    motivo: JsValue,
    dataVencimento: JsValue,
    usuario: JsValue,
    dataHoraInsercao: JsValue)

  /** The worksheet columns filled straight from the product's field of the
      same key. */
  const CopiedColumns := ["codigo", "produto", "valor", "quantidade", "motivo", "usuario", "dataHoraInsercao"]

  /** The cell of an export row under a column key. */
  function CellOf(row: ExportRow, key: string): JsValue
    requires key in CopiedColumns || key == "dataVencimento"
  {
    match key
    case "codigo" => row.codigo
    case "produto" => row.produto
    case "valor" => row.valor
    case "quantidade" => row.quantidade
    case "motivo" => row.motivo
    case "usuario" => row.usuario
    case "dataHoraInsercao" => row.dataHoraInsercao
    case _ => row.dataVencimento
  }

  /** The row of one product; the due date only for reason 'VENCIDO'. */
  function ExportRowOf(p: Record, number: nat): (row: ExportRow)
    ensures row.number == number && row.motivo == Field(p, "motivo")
    ensures forall key :: key in CopiedColumns ==> CellOf(row, key) == Field(p, key)
    ensures Field(p, "motivo") == Str("VENCIDO") ==> row.dataVencimento == Field(p, "dataVencimento")
    ensures Field(p, "motivo") != Str("VENCIDO") ==> row.dataVencimento == Str("")
  {
    ExportRow(number, Field(p, "codigo"), Field(p, "produto"), Field(p, "valor"),
      Field(p, "quantidade"), Field(p, "motivo"),
      if Field(p, "motivo") == Str("VENCIDO") then Field(p, "dataVencimento") else Str(""),
      Field(p, "usuario"), Field(p, "dataHoraInsercao"))
  }

  /** One row per product, in list order, numbered from 1. */
  function ExportRows(store: seq<Record>): (rows: seq<ExportRow>)
    ensures |rows| == |store|
    ensures forall i :: 0 <= i < |rows| ==> rows[i] == ExportRowOf(store[i], i + 1)
    decreases |store|
  {
    if store == [] then []
    else
      var n := |store|;
      var init := ExportRows(store[..n - 1]);
      assert forall i :: 0 <= i < n - 1 ==> store[..n - 1][i] == store[i];
      init + [ExportRowOf(store[n - 1], n)]
  }

  /** Rows are numbered 1, 2, … and a due date shows only for reason
      'VENCIDO'. */
  lemma ExportRowsShape(store: seq<Record>)
    ensures forall i :: 0 <= i < |store| ==> ExportRows(store)[i].number == i + 1
    ensures forall i :: 0 <= i < |store| && ExportRows(store)[i].dataVencimento != Str("") ==>
      Field(store[i], "motivo") == Str("VENCIDO")
  {
  }

  /** Appending a record appends its row, numbered after the others. */
  lemma ExportRowsSnoc(store: seq<Record>, p: Record)
    ensures ExportRows(store + [p])[..|store|] == ExportRows(store)
    ensures ExportRows(store + [p])[|store|] == ExportRowOf(p, |store| + 1)
  {
    assert (store + [p])[..|store|] == store;
    var rows := ExportRows(store + [p]);
    assert rows == ExportRows(store) + [ExportRowOf(p, |store| + 1)];
  }

  /** A field the server does not generate reads the same after adding. */
  lemma FieldKeptOnAdd(store: seq<Record>, body: Record, id: int, now: string, key: string)
    requires ValidateProduct(body).None? && key !in Generated
    ensures Field(AddProduct(store, body, id, now).store[|store|], key) == Field(body, key)
  {
  }

  /** Adding a product leaves every earlier export row as it was. */
  lemma ExportAfterAdd(store: seq<Record>, body: Record, id: int, now: string)
    requires ValidateProduct(body).None?
    ensures ExportRows(AddProduct(store, body, id, now).store)[..|store|] == ExportRows(store)
  {
    var added := AddProduct(store, body, id, now).store;
    ExportRowsSnoc(store, added[|store|]);
  }

  /** The added product's row comes last, numbered after the others. */
  lemma ExportRowOfAdded(store: seq<Record>, body: Record, id: int, now: string)
    requires ValidateProduct(body).None?
    ensures ExportRows(AddProduct(store, body, id, now).store)[|store|].number == |store| + 1
    ensures ExportRows(AddProduct(store, body, id, now).store)[|store|].codigo == Field(body, "codigo")
  {
    var added := AddProduct(store, body, id, now).store;
    ExportRowsSnoc(store, added[|store|]);
    FieldKeptOnAdd(store, body, id, now, "codigo");
  }

  /** The style ExcelJS is told to give every cell of a worksheet row. */
  datatype CellStyle = CellStyle(fill: string, bold: bool, fontColor: Option<string>)

  const HeaderFill := "FFFF9800"
  const EvenFill := "FFF6E7"
  const OddFill := "FFFFFFFF"
  const HeaderFont := "FFFFFFFF"

  /** The style of worksheet row `rowNumber` (row 1 holds the headers). */
  function RowStyle(rowNumber: nat): (style: CellStyle)
    ensures style.bold <==> rowNumber == 1
    ensures style.fontColor.Some? <==> rowNumber == 1
    ensures rowNumber == 1 ==> style.fill == HeaderFill && style.fontColor == Some(HeaderFont)
    ensures style.fill == HeaderFill <==> rowNumber == 1
    ensures rowNumber > 1 && rowNumber % 2 == 0 ==> style.fill == EvenFill
    ensures rowNumber > 1 && rowNumber % 2 == 1 ==> style.fill == OddFill
  {
    if rowNumber == 1 then CellStyle(HeaderFill, true, Some(HeaderFont))
    else if rowNumber % 2 == 0 then CellStyle(EvenFill, false, None)
    else CellStyle(OddFill, false, None)
  }

  /** Export row i (numbered i) sits on worksheet row i + 1: the first
      product gets the tinted fill and the fills alternate from there. */
  lemma ProductRowFill(i: nat)
    requires i >= 1
    ensures RowStyle(i + 1).fill == EvenFill <==> i % 2 == 1
    ensures RowStyle(i + 1).fill != RowStyle(i + 2).fill
    ensures RowStyle(i + 1) != RowStyle(1)
  {
  }

  /** `/exportToExcel` as the server runs it: the filter the browser sends in
      the query string is never read. */
  function ExportToExcel(store: seq<Record>, filter: Export.ExportFilter): (rows: seq<ExportRow>)
    ensures |rows| == |store|
    ensures forall i :: 0 <= i < |rows| ==> rows[i].motivo == Field(store[i], "motivo")
  {
    ExportRows(store)
  }

  /** A product of one reason is exported even when the user chose only
      another reason. */
  lemma ExportIgnoresReasonFilter()
    ensures var p: Record := map["motivo" := Str("VENCIDO")];
      var f := Export.ExportFilter("motivo", Some(["AVARIADO"]), None, None);
      && |ExportToExcel([p], f)| == 1
      && ExportToExcel([p], f)[0].motivo == Str("VENCIDO")
      && !Chosen(p, f)
  {
  }

  /** Whether a filter selects a product: a 'motivo' filter keeps the
      products whose reason is among the chosen ones; the other types keep
      every product. */
  predicate Chosen(p: Record, f: Export.ExportFilter)
  {
    f.kind != "motivo"
    || (f.motivos.Some? && Field(p, "motivo").Str? && Field(p, "motivo").s in f.motivos.value)
  }

  /** The products a filter selects, in list order. */
  function Selected(store: seq<Record>, f: Export.ExportFilter): (chosen: seq<Record>)
    ensures |chosen| <= |store|
    ensures forall p :: p in chosen <==> p in store && Chosen(p, f)
    decreases |store|
  {
    if store == [] then []
    else
      var n := |store|;
      var init := Selected(store[..n - 1], f);
      assert store == store[..n - 1] + [store[n - 1]];
      if Chosen(store[n - 1], f) then init + [store[n - 1]] else init
  }

  /** The export with the filter applied, renumbered over the selection. */
  function ExportRowsFor(store: seq<Record>, f: Export.ExportFilter): (rows: seq<ExportRow>)
    ensures |rows| <= |store|
    ensures forall i :: 0 <= i < |rows| ==> rows[i].number == i + 1
    ensures f.kind == "motivo" ==> forall i :: 0 <= i < |rows| ==>
      rows[i].motivo.Str? && f.motivos.Some? && rows[i].motivo.s in f.motivos.value
    ensures f.kind != "motivo" ==> rows == ExportToExcel(store, f)
    ensures |rows| == |Selected(store, f)|
    ensures forall i :: 0 <= i < |rows| ==> rows[i] == ExportRowOf(Selected(store, f)[i], i + 1)
  {
    var chosen := Selected(store, f);
    var rows := ExportRows(chosen);
    assert forall i :: 0 <= i < |chosen| ==> chosen[i] in chosen;
    assert f.kind != "motivo" ==> chosen == store by {
      if f.kind != "motivo" {
        SelectAll(store, f);
      }
    }
    rows
  }

  lemma {:induction false} SelectAll(store: seq<Record>, f: Export.ExportFilter)
    requires f.kind != "motivo"
    ensures Selected(store, f) == store
    decreases |store|
  {
    if store != [] {
      SelectAll(store[..|store| - 1], f);
      assert store == store[..|store| - 1] + [store[|store| - 1]];
    }
  }

  /** With the filter applied, the product of the unchosen reason is left
      out. */
  lemma FilteredExportDropsUnchosen()
    ensures var p: Record := map["motivo" := Str("VENCIDO")];
      ExportRowsFor([p], Export.ExportFilter("motivo", Some(["AVARIADO"]), None, None)) == []
  {
    var p: Record := map["motivo" := Str("VENCIDO")];
    var f := Export.ExportFilter("motivo", Some(["AVARIADO"]), None, None);
    assert !Chosen(p, f);
  }
}

=== FILE: table.dfy ===
/** The product table of the main page (`table-handler.js`): the row built for
    a product, the in-place update after an edit, renumbering after a delete,
    the search filter and the periodic status refresh. A row is the text of its
    twelve cells plus the status cell's class and title. */
module Table {
  import opened Js
  import opened Text
  import opened Catalog
  import opened Expiry
  import opened Html

  /** The status cell: its text, its CSS class and its title (the tooltip). */
  datatype StatusCell = StatusCell(text: string, cssClass: string, title: string)

  datatype Row = Row(
    numero: string,
    codigo: string,
    valor: string,
    produto: string,
    quantidade: string,
    motivo: string,
    dataVencimento: string,
    status: StatusCell,
    usuario: string,
    dataHoraInsercao: string,
    dataUltimaModificacao: string,
    acoes: string)

  /** Column positions, as `row.children[i]` addresses them. */
  const ColNumero := 0
  const ColMotivo := 5
  const ColDataVencimento := 6
  const ColStatus := 7
  const ColUsuario := 8
  const ColDataHoraInsercao := 9
  const ColDataUltimaModificacao := 10
  const ColAcoes := 11

  /** The text content of the twelve cells, in column order. */
  function Cells(r: Row): (cells: seq<string>)
    ensures |cells| == 12
    ensures cells[ColNumero] == r.numero && cells[ColMotivo] == r.motivo
    ensures cells[ColStatus] == r.status.text && cells[ColUsuario] == r.usuario
    ensures cells[ColDataHoraInsercao] == r.dataHoraInsercao && cells[ColAcoes] == r.acoes
  {
    [r.numero, r.codigo, r.valor, r.produto, r.quantidade, r.motivo, r.dataVencimento,
     r.status.text, r.usuario, r.dataHoraInsercao, r.dataUltimaModificacao, r.acoes]
  }

  function StatusCellFor(s: Status): StatusCell
  {
    StatusCell(Label(s), CssClass(s), Tooltip(s))
  }

  /** The text a cell shows for `<td>${escapeHtml(text)}</td>`. */
  function EscapedCell(text: string): (shown: string)
    ensures shown == text
  {
    DecodeEscape(text);
    DecodeEntities(EscapeText(text))
  }

  /** `a || b` on two texts. */
  function OrElse(a: string, b: string): string
  {
    if a != "" then a else b
  }

  /** The row `addProductToTable` appends as row number `number`. */
  function BuildRow(p: Product, number: nat, today: int): (r: Row)
    ensures r.codigo == p.codigo && r.valor == p.valor && r.produto == p.produto
    ensures r.motivo == p.motivo && r.dataVencimento == p.dataVencimento && r.usuario == p.usuario
    ensures r.dataHoraInsercao == p.dataHoraInsercao
    ensures r.numero == NatToString(number) && ParseInt(r.numero) == Some(number)
    ensures r.quantidade == p.quantidade
    ensures p.motivo != MotivoVencido ==> r.status.text == "N/A" && r.status.cssClass == "sem-vencimento"
    ensures p.motivo == MotivoVencido ==> r.status == StatusCellFor(DiasParaVencimento(p.dataVencimento, today))
    ensures p.dataUltimaModificacao != "" ==> r.dataUltimaModificacao == p.dataUltimaModificacao
    ensures p.dataUltimaModificacao == "" ==> r.dataUltimaModificacao == p.dataHoraInsercao
  {
    ParseNatToString(number);
    Row(
      NatToString(number),
      EscapedCell(p.codigo),
      EscapedCell(p.valor),
      EscapedCell(p.produto),
      p.quantidade,
      EscapedCell(p.motivo),
      EscapedCell(p.dataVencimento),
      StatusCellFor(StatusFor(p.motivo, p.dataVencimento, today)),
      EscapedCell(p.usuario),
      EscapedCell(p.dataHoraInsercao),
      EscapedCell(OrElse(p.dataUltimaModificacao, p.dataHoraInsercao)),
      "")
  }

  /** `updateProductInTable(row, produto)`, with `now` the current date and
      time text: every cell is rewritten from the product except the row
      number, the insertion stamp and the actions. */
  function UpdateRow(row: Row, p: Product, today: int, now: string): (r: Row)
    ensures r.numero == row.numero && r.dataHoraInsercao == row.dataHoraInsercao && r.acoes == row.acoes
    ensures r.codigo == p.codigo && r.motivo == p.motivo && r.usuario == p.usuario
    ensures r.valor == p.valor && r.produto == p.produto && r.quantidade == p.quantidade
    ensures r.dataVencimento == p.dataVencimento
    ensures p.motivo != MotivoVencido ==> r.status.text == "N/A" && r.status.cssClass == "sem-vencimento"
    ensures p.motivo == MotivoVencido ==> r.status == StatusCellFor(DiasParaVencimento(p.dataVencimento, today))
    ensures p.dataUltimaModificacao != "" ==> r.dataUltimaModificacao == p.dataUltimaModificacao
    ensures p.dataUltimaModificacao == "" ==> r.dataUltimaModificacao == now
  {
    row.(
      codigo := p.codigo,
      valor := p.valor,
      produto := p.produto,
      quantidade := p.quantidade,
      motivo := p.motivo,
      dataVencimento := p.dataVencimento,
      status := StatusCellFor(StatusFor(p.motivo, p.dataVencimento, today)),
      usuario := p.usuario,
      dataUltimaModificacao := OrElse(p.dataUltimaModificacao, now))
  }

  /** Updating a row in place shows what rebuilding it would show, with the
      original insertion stamp, whenever the product carries its modification
      stamp. */
  lemma UpdateMatchesRebuild(p: Product, number: nat, q: Product, today: int, now: string)
    requires q.dataUltimaModificacao != ""
    ensures UpdateRow(BuildRow(p, number, today), q, today, now)
         == BuildRow(q.(dataHoraInsercao := p.dataHoraInsercao), number, today)
  {
  }

  /** The numbering `updateRowNumbers` gives: row i shows i + 1. */
  predicate NumberedFromOne(rows: seq<Row>)
  {
    forall i :: 0 <= i < |rows| ==> ParseInt(rows[i].numero) == Some(i + 1)
  }

  /** `updateRowNumbers()`: every row's first cell becomes its position plus
      one, nothing else changes, and the row count is returned as the new
      `productCount`. */
  method RenumberRows(rows: seq<Row>) returns (out: seq<Row>, productCount: nat)
    ensures productCount == |rows| && |out| == |rows|
    ensures forall i :: 0 <= i < |out| ==> out[i].numero == NatToString(i + 1)
    ensures NumberedFromOne(out)
    ensures forall i :: 0 <= i < |rows| ==> out[i] == rows[i].(numero := out[i].numero)
  {
    out := [];
    var i := 0;
    while i < |rows|
      invariant 0 <= i <= |rows| && |out| == i
      invariant forall k :: 0 <= k < i ==> out[k] == rows[k].(numero := NatToString(k + 1))
    {
      out := out + [rows[i].(numero := NatToString(i + 1))];
      i := i + 1;
    }
    productCount := |rows|;
    forall k | 0 <= k < |out|
      ensures ParseInt(out[k].numero) == Some(k + 1)
    {
      ParseNatToString(k + 1);
    }
  }

  /** Some cell other than the last (the actions) contains the lower-cased
      term once lower-cased. */
  predicate RowMatches(r: Row, term: string)
  {
    var cells := Cells(r);
    exists j :: 0 <= j < |cells| - 1 && Contains(Lower(cells[j]), Lower(term))
  }

  /** `filterTable(searchTerm)`: the visibility of each row. An empty term
      shows every row; otherwise a row is shown when one of its cells other
      than the actions contains the term, ignoring ASCII case. */
  method FilterTable(rows: seq<Row>, term: string) returns (visible: seq<bool>)
    ensures |visible| == |rows|
    ensures term == "" ==> forall i :: 0 <= i < |rows| ==> visible[i]
    ensures term != "" ==> forall i :: 0 <= i < |rows| ==> (visible[i] <==> RowMatches(rows[i], term))
  {
    if term == "" {
      visible := seq(|rows|, _ => true);
      return;
    }
    var needle := Lower(term);
    visible := [];
    var i := 0;
    while i < |rows|
      invariant 0 <= i <= |rows| && |visible| == i
      invariant forall k :: 0 <= k < i ==> (visible[k] <==> RowMatches(rows[k], term))
    {
      var cells := Cells(rows[i]);
      var found := false;
      var j := 0;
      while j < |cells| - 1
        invariant 0 <= j <= |cells| - 1
        invariant !found ==> forall c :: 0 <= c < j ==> !Contains(Lower(cells[c]), needle)
        invariant found ==> RowMatches(rows[i], term)
      {
        if Contains(Lower(cells[j]), needle) {
          found := true;
          break;
        }
        j := j + 1;
      }
      visible := visible + [found];
      i := i + 1;
    }
  }

  /** A cell that contains the term as typed makes the row match. */
  lemma LiteralMatchShows(r: Row, term: string, j: int)
    requires 0 <= j < 11 && Contains(Cells(r)[j], term)
    ensures RowMatches(r, term)
  {
    LowerKeepsContains(Cells(r)[j], term);
  }

  /** The filter ignores the case of the term. */
  lemma FilterIgnoresTermCase(r: Row, term: string)
    ensures RowMatches(r, Lower(term)) <==> RowMatches(r, term)
  {
    LowerIdempotent(term);
  }

  /** The action cell never decides whether a row is shown. */
  lemma FilterIgnoresActions(r: Row, term: string, acoes: string)
    ensures RowMatches(r.(acoes := acoes), term) <==> RowMatches(r, term)
  {
    var cells, cells' := Cells(r), Cells(r.(acoes := acoes));
    assert forall j :: 0 <= j < 11 ==> cells[j] == cells'[j];
  }

  /** One row of `atualizarStatusVencimento`: the motivo and date cells are read
      trimmed; for a VENCIDO row with a date the status is recomputed and the
      status cell rewritten when its text differs. */
  function RefreshRow(r: Row, today: int): (out: Row)
    ensures out == r.(status := out.status)
    ensures Trim(r.motivo) != MotivoVencido || Trim(r.dataVencimento) == "" ==> out == r
    ensures out != r ==> out.status.text != r.status.text
    ensures Trim(r.motivo) == MotivoVencido && Trim(r.dataVencimento) != "" ==>
      out.status.text == Label(DiasParaVencimento(Trim(r.dataVencimento), today))
    ensures out.status.text != r.status.text ==>
      out.status == StatusCellFor(DiasParaVencimento(Trim(r.dataVencimento), today))
  {
    var motivo := Trim(r.motivo);
    var date := Trim(r.dataVencimento);
    if motivo == MotivoVencido && date != "" then
      var s := DiasParaVencimento(date, today);
      if r.status.text != Label(s) then r.(status := StatusCellFor(s)) else r
    else r
  }

  /** `atualizarStatusVencimento()` over the whole table. */
  function RefreshStatus(rows: seq<Row>, today: int): (out: seq<Row>)
    ensures |out| == |rows|
    ensures forall i :: 0 <= i < |rows| ==> out[i] == RefreshRow(rows[i], today)
  {
    seq(|rows|, i requires 0 <= i < |rows| => RefreshRow(rows[i], today))
  }

  /** After a refresh the status text agrees with the date; a second refresh on
      the same day changes nothing. */
  lemma RefreshRowIdempotent(r: Row, today: int)
    ensures RefreshRow(RefreshRow(r, today), today) == RefreshRow(r, today)
  {
  }

  lemma RefreshIdempotent(rows: seq<Row>, today: int)
    ensures RefreshStatus(RefreshStatus(rows, today), today) == RefreshStatus(rows, today)
  {
    var once := RefreshStatus(rows, today);
    forall i | 0 <= i < |rows|
      ensures RefreshStatus(once, today)[i] == once[i]
    {
      RefreshRowIdempotent(rows[i], today);
    }
  }

  /** A row built for a product due tomorrow reads "1 dia"; refreshed on the
      next day it reads HOJE, with the class and tooltip of that status. */
  lemma RefreshNextDay(p: Product, number: nat, today: int)
    requires p.motivo == MotivoVencido && Trim(p.dataVencimento) == p.dataVencimento
    requires DiasParaVencimento(p.dataVencimento, today) == DueSoon(1)
    ensures BuildRow(p, number, today).status.text == "1 dia"
    ensures RefreshRow(BuildRow(p, number, today), today + 1).status == StatusCellFor(DueToday)
  {
    var row := BuildRow(p, number, today);
    TrimVencido();
    StaleRowNextDay(row, today);
  }

  /** The row-level step: a VENCIDO row showing the status of a product due
      tomorrow shows HOJE after a refresh on the next day. */
  lemma StaleRowNextDay(r: Row, today: int)
    requires Trim(r.motivo) == MotivoVencido
    requires DiasParaVencimento(Trim(r.dataVencimento), today) == DueSoon(1)
    requires r.status == StatusCellFor(DueSoon(1))
    ensures r.status.text == "1 dia"
    ensures RefreshRow(r, today + 1).status == StatusCellFor(DueToday)
  {
    OneDayLabel();
    OneDayLater(Trim(r.dataVencimento), today);
    RefreshShows(r, today + 1, DueToday);
  }

  lemma TrimVencido()
    ensures Trim(MotivoVencido) == MotivoVencido
  {
    TrimUnpadded(MotivoVencido);
  }

  /** A VENCIDO row whose text differs from its recomputed status shows that
      status, class and tooltip included, after a refresh. */
  lemma RefreshShows(r: Row, today: int, s: Status)
    requires Trim(r.motivo) == MotivoVencido && s != NoDate
    requires DiasParaVencimento(Trim(r.dataVencimento), today) == s
    requires r.status.text != Label(s)
    ensures RefreshRow(r, today).status == StatusCellFor(s)
  {
    assert Trim(r.dataVencimento) != "";
  }

  /** Only the text is compared: a row already showing VENCIDO keeps its old
      tooltip as the days since the due date grow. */
  lemma OverdueTooltipKeptOnRefresh(r: Row, today: int)
    requires Trim(r.motivo) == MotivoVencido && Trim(r.dataVencimento) != ""
    requires r.status.text == "VENCIDO"
    requires DiasParaVencimento(Trim(r.dataVencimento), today).Overdue?
    ensures RefreshRow(r, today) == r
  {
  }

  /** A row built today already shows the status a refresh today computes, when
      its motivo and date carry no surrounding whitespace. */
  lemma RefreshAfterBuild(p: Product, number: nat, today: int)
    requires Trim(p.motivo) == p.motivo && Trim(p.dataVencimento) == p.dataVencimento
    ensures RefreshRow(BuildRow(p, number, today), today) == BuildRow(p, number, today)
  {
  }
}

=== FILE: text.dfy ===
/** String operations of JavaScript used by the application: `split`, `join`,
    `includes`, ASCII `toLowerCase`, `Number.prototype.toString`, `padStart`,
    `padEnd` and `replace(/\s+/g, rep)`. */
module Text {
  import opened Js

  /** `s.split(sep)` for a one-character separator. */
  function Split(s: string, sep: char): (parts: seq<string>)
    ensures |parts| >= 1
    ensures forall i :: 0 <= i < |parts| ==> sep !in parts[i]
    ensures Join(parts, [sep]) == s
    ensures |parts| == 1 <==> sep !in s
    decreases |s|
  {
    if |s| == 0 then [""]
    else
      var rest := Split(s[1..], sep);
      if s[0] == sep then
        [""] + rest
      else
        var parts := [[s[0]] + rest[0]] + rest[1..];
        JoinExtendFirst(s[0], rest, [sep]);
        parts
  }

  /** Putting a character in front of the first piece puts it in front of the
      joined text. */
  lemma JoinExtendFirst(c: char, parts: seq<string>, sep: string)
    requires |parts| >= 1
    ensures Join([[c] + parts[0]] + parts[1..], sep) == [c] + Join(parts, sep)
  {
    if |parts| > 1 {
      assert ([[c] + parts[0]] + parts[1..])[1..] == parts[1..];
    }
  }

  /** `parts.join(sep)`. */
  function Join(parts: seq<string>, sep: string): string
  {
    if |parts| == 0 then ""
    else if |parts| == 1 then parts[0]
    else parts[0] + sep + Join(parts[1..], sep)
  }

  /** Splitting a text made of separator-free pieces recovers the pieces. */
  lemma {:induction false} SplitJoin(parts: seq<string>, sep: char)
    requires |parts| >= 1
    requires forall i :: 0 <= i < |parts| ==> sep !in parts[i]
    ensures Split(Join(parts, [sep]), sep) == parts
    decreases |parts|
  {
    if |parts| == 1 {
      assert sep !in parts[0];
    } else {
      SplitJoin(parts[1..], sep);
      SplitAfterPiece(parts[0], Join(parts[1..], [sep]), sep);
      assert parts == [parts[0]] + parts[1..];
    }
  }

  lemma {:induction false} SplitAfterPiece(a: string, b: string, sep: char)
    requires sep !in a
    ensures Split(a + [sep] + b, sep) == [a] + Split(b, sep)
    decreases |a|
  {
    if |a| == 0 {
      assert a + [sep] + b == [sep] + b;
      assert ([sep] + b)[1..] == b;
    } else {
      var s := a + [sep] + b;
      assert s[0] == a[0] && s[1..] == a[1..] + [sep] + b;
      SplitAfterPiece(a[1..], b, sep);
      var rest := Split(s[1..], sep);
      assert rest[0] == a[1..] && rest[1..] == Split(b, sep);
      assert [a[0]] + a[1..] == a;
    }
  }

  /** Two separator-free pieces around one separator split back into the two. */
  lemma SplitTwo(a: string, b: string, sep: char)
    requires sep !in a && sep !in b
    ensures Split(a + [sep] + b, sep) == [a, b]
  {
    SplitAfterPiece(a, b, sep);
    var rest := Split(b, sep);
    assert |rest| == 1;
    assert rest == [b];
  }

  /** Three separator-free pieces joined by the separator split back into the three. */
  lemma SplitThree(a: string, b: string, c: string, sep: char)
    requires sep !in a && sep !in b && sep !in c
    ensures Split(a + [sep] + b + [sep] + c, sep) == [a, b, c]
  {
    assert a + [sep] + b + [sep] + c == a + [sep] + (b + [sep] + c);
    SplitAfterPiece(a, b + [sep] + c, sep);
    SplitTwo(b, c, sep);
  }

  /** `t` occurs in `s` at position `i`. */
  predicate OccursAt(s: string, t: string, i: int)
    requires 0 <= i <= |s| - |t|
  {
    s[i..i + |t|] == t
  }

  /** `s.includes(t)`. */
  predicate Contains(s: string, t: string)
  {
    exists i :: 0 <= i <= |s| - |t| && OccursAt(s, t, i)
  }

  function LowerChar(c: char): (d: char)
  {
    if 'A' <= c <= 'Z' then c - 'A' + 'a' else c
  }

  /** `toLowerCase` on the ASCII letters. */
  function Lower(s: string): (r: string)
    ensures |r| == |s|
    ensures forall i :: 0 <= i < |s| ==> r[i] == LowerChar(s[i])
  {
    seq(|s|, i requires 0 <= i < |s| => LowerChar(s[i]))
  }

  lemma LowerIdempotent(s: string)
    ensures Lower(Lower(s)) == Lower(s)
  {
  }

  /** Lowering both sides preserves a substring match, so a literal match is
      also a case-insensitive one. */
  lemma LowerKeepsContains(s: string, t: string)
    requires Contains(s, t)
    ensures Contains(Lower(s), Lower(t))
  {
    var i :| 0 <= i <= |s| - |t| && OccursAt(s, t, i);
    assert Lower(s)[i..i + |t|] == Lower(t);
    assert OccursAt(Lower(s), Lower(t), i);
  }

  /** The decimal digit for `d`. */
  function DigitChar(d: nat): (c: char)
    requires d < 10
    ensures IsDigit(c) && DigitValue(c) == d
  {
    '0' + d as char
  }

  /** `n.toString()` for a non-negative integer: the shortest decimal spelling. */
  function NatToString(n: nat): (r: string)
    ensures r != "" && AllDigits(r)
    ensures DecimalValue(r) == n
    ensures |r| > 1 ==> r[0] != '0'
    ensures n < 10 <==> |r| == 1
  {
    if n < 10 then [DigitChar(n)]
    else
      var p := NatToString(n / 10);
      var r := p + [DigitChar(n % 10)];
      assert r[..|r| - 1] == p;
      r
  }

  lemma NatToStringStep(n: nat)
    requires n >= 10
    ensures |NatToString(n)| == |NatToString(n / 10)| + 1
  {
  }

  /** Four-digit years print with four digits. */
  lemma NatToStringFourDigits(n: nat)
    requires 1000 <= n < 10000
    ensures |NatToString(n)| == 4
  {
    NatToStringStep(n);
    NatToStringStep(n / 10);
    NatToStringStep(n / 100);
    assert n / 10 / 10 == n / 100 && n / 100 / 10 == n / 1000;
  }

  /** `parseInt(n.toString())` gives `n` back. */
  lemma ParseNatToString(n: nat)
    ensures ParseInt(NatToString(n)) == Some(n)
  {
    ParseIntOfDigits(NatToString(n));
  }

  function Repeat(c: char, n: nat): (r: string)
    ensures |r| == n
    ensures forall i :: 0 <= i < n ==> r[i] == c
  {
    if n == 0 then "" else [c] + Repeat(c, n - 1)
  }

  /** `s.padStart(width, c)`. */
  function PadStart(s: string, width: nat, c: char): (r: string)
    ensures |r| == if |s| >= width then |s| else width
    ensures r[|r| - |s|..] == s
    ensures forall i :: 0 <= i < |r| - |s| ==> r[i] == c
  {
    if |s| >= width then s else Repeat(c, width - |s|) + s
  }

  /** `s.padEnd(width, c)`. */
  function PadEnd(s: string, width: nat, c: char): (r: string)
    ensures |r| == if |s| >= width then |s| else width
    ensures r[..|s|] == s
    ensures forall i :: |s| <= i < |r| ==> r[i] == c
  {
    if |s| >= width then s else s + Repeat(c, width - |s|)
  }

  /** `n.toString().padStart(2, '0')`. */
  function Pad2(n: nat): (r: string)
    requires n < 100
    ensures |r| == 2 && AllDigits(r)
    ensures DecimalValue(r) == n
    ensures r == if n < 10 then "0" + NatToString(n) else NatToString(n)
  {
    var s := NatToString(n);
    var r := PadStart(s, 2, '0');
    assert n < 10 ==> r == ['0'] + s && r[..1] == "0";
    r
  }

  lemma ParsePad2(n: nat)
    requires n < 100
    ensures ParseInt(Pad2(n)) == Some(n)
  {
    ParseIntOfDigits(Pad2(n));
  }

  /** The whitespace run at the start of `s` removed. */
  function DropWhitespace(s: string): (r: string)
    ensures |r| <= |s| && r == s[|s| - |r|..]
    ensures r == "" || !IsWhitespace(r[0])
  {
    if |s| > 0 && IsWhitespace(s[0]) then DropWhitespace(s[1..]) else s
  }

  /** `s.replace(/\s+/g, rep)`: every maximal whitespace run becomes `rep`. */
  function ReplaceWhitespaceRuns(s: string, rep: string): (r: string)
    requires forall i :: 0 <= i < |rep| ==> !IsWhitespace(rep[i])
    ensures forall i :: 0 <= i < |r| ==> !IsWhitespace(r[i])
    ensures forall i :: 0 <= i < |r| ==> r[i] in rep || r[i] in s
    ensures (forall i :: 0 <= i < |s| ==> !IsWhitespace(s[i])) ==> r == s
    decreases |s|
  {
    if |s| == 0 then ""
    else if IsWhitespace(s[0]) then
      var d := DropWhitespace(s);
      var rest := ReplaceWhitespaceRuns(d, rep);
      assert forall c :: c in d ==> c in s;
      rep + rest
    else
      var rest := ReplaceWhitespaceRuns(s[1..], rep);
      assert (forall i :: 0 <= i < |s| ==> !IsWhitespace(s[i])) ==>
        (forall i :: 0 <= i < |s[1..]| ==> !IsWhitespace(s[1..][i]));
      assert forall c :: c in s[1..] ==> c in s;
      [s[0]] + rest
  }

  /** Dropping the whitespace at the front of a blank piece followed by `b`
      leaves `b`, when `b` does not itself start with whitespace. */
  lemma {:induction false} DropBlankPrefix(w: string, b: string)
    requires IsBlank(w)
    requires b == "" || !IsWhitespace(b[0])
    ensures DropWhitespace(w + b) == b
    decreases |w|
  {
    if |w| > 0 {
      assert (w + b)[1..] == w[1..] + b;
      DropBlankPrefix(w[1..], b);
    } else {
      assert w + b == b;
    }
  }

  /** One whitespace run between a whitespace-free piece `a` and a text `b`
      that does not start with whitespace is replaced by exactly one `rep`. */
  lemma {:induction false} ReplaceRunOnce(a: string, w: string, b: string, rep: string)
    requires forall i :: 0 <= i < |rep| ==> !IsWhitespace(rep[i])
    requires forall i :: 0 <= i < |a| ==> !IsWhitespace(a[i])
    requires w != "" && IsBlank(w)
    requires b == "" || !IsWhitespace(b[0])
    ensures ReplaceWhitespaceRuns(a + w + b, rep) == a + rep + ReplaceWhitespaceRuns(b, rep)
    decreases |a|
  {
    var s := a + w + b;
    var tail := ReplaceWhitespaceRuns(b, rep);
    if |a| == 0 {
      assert s == w + b && IsWhitespace(s[0]);
      DropBlankPrefix(w, b);
      assert ReplaceWhitespaceRuns(s, rep) == rep + tail;
      ConcatEmpty(a, rep, tail);
    } else {
      assert s[0] == a[0] && s[1..] == a[1..] + w + b;
      ReplaceRunOnce(a[1..], w, b, rep);
      assert ReplaceWhitespaceRuns(s, rep) == [a[0]] + (a[1..] + rep + tail);
      ConcatHead(a, rep, tail);
    }
  }

  lemma ConcatEmpty<T>(a: seq<T>, b: seq<T>, c: seq<T>)
    requires a == []
    ensures a + b + c == b + c
  {
  }

  lemma ConcatHead<T>(a: seq<T>, b: seq<T>, c: seq<T>)
    requires a != []
    ensures [a[0]] + (a[1..] + b + c) == a + b + c
  {
    assert a == [a[0]] + a[1..];
  }

  predicate StartsWith(s: string, prefix: string)
  {
    |prefix| <= |s| && s[..|prefix|] == prefix
  }
}
